=== FILE: README.md ===
# Etude-pro timetable logic in Dafny

A model of the computations behind the Etude-pro course timetable (a React
app), with the properties its code promises stated as contracts and
lemmas. Each computation is written over an immutable list of `Course`
records:

- the suggestion engine `generateAISuggestions` (App.tsx):
  - a pairwise conflict scan at hour granularity;
  - a three-way credit-load classification;
  - a free-Friday check;
  - an overloaded-day count;
  - a fallback list that is never reached;
- the host's list updates in App.tsx: adding one course, and appending a
  reviewed batch with `<now>-<index>` ids;
- the assistant panel (AIAssistant.tsx):
  - the duplicated conflict check `hasConflicts`, proved to agree with the engine;
  - the credit total;
  - the average hours per day;
  - the analyse-button guard;
- the iCalendar export (ExportCalendar.tsx):
  - the day offset `(dayOfWeek - currentDay + 7) % 7 || 7`, with JavaScript's truncating `%`;
  - the BYDAY code table;
  - the document built by string accumulation. It has a fixed header (section 3.4 of RFC 5545), one VEVENT block per course (section 3.6.1), a weekly RRULE (section 3.8.5.3) and the closing line;
- the weekly grid (CalendarView.tsx):
  - five day columns and thirteen hour rows;
  - the first-match slot lookup;
  - block height in minutes;
  - the rule that draws a block only in the row of the course's start hour;
- the dashboard aggregates (Dashboard.tsx): credit total, weekly minutes, distinct days, and the priority-colour and type-badge tables;
- the review dialog (ReviewCoursesDialog.tsx):
  - field edits;
  - removal by index;
  - the edit toggle;
  - confirmation, and the guard that disables it;
  - the one dialog instance App mounts, driven by a sequence of events (see "## Findings").

The following representation choices apply throughout:

- Times are parsed `(hour, minute)` pairs.
- `dayOfWeek` is `0..6` with 0 = Sunday.
- `credits` and `description` are optional, and an absent credit counts 0.
- A suggestion's `id` and `message` are kept as structured values (`SuggestionKey`, `Message`). Their `Text()` spells the exact strings of the code, and distinct keys are proved to spell distinct ids.
- The clock is a parameter. `Date.now()` becomes `now`; in the batch `map`, which reads the clock once per element, it becomes one reading `nows[k]` per element. The three timestamps of an exported event arrive as already-formatted strings (`Stamps`). `today.getDay()` becomes `currentDay`.
- The placeholder suggestion list is a parameter `fallback`.

Modules:

- `Wrappers`: the Option type.
- `Text`: decimal rendering with an inverse, and line joining and splitting.
- `CourseModel`: the records of course.ts and the id and message texts.
- `Conflicts`: the overlap test.
- `Dashboard`: the aggregates and rendering tables.
- `Suggestions`: the engine.
- `EngineFacts`: what the engine's list contains.
- `Host`: the App.tsx list updates.
- `Assistant`, `Calendar`, `Grid` and `Review`: one module per component.

When a course has no credits, the exported DESCRIPTION prints `${course.credits}` as the text `undefined` (`Calendar.CreditsText`).

## Model

| member | source | states |
|---|---|---|
| Conflicts.HourOverlapIsIntervalOverlap | App.tsx:65-68 | on ranges whose end hour is after the start hour, the two-sided test is exactly half-open interval overlap `s1 < e2 && s2 < e1`; overlap always implies the test |
| Conflicts.HourOverlapSharesAnHour | App.tsx:65-68 | on well-formed ranges the test holds exactly when some whole hour lies in both ranges |
| Conflicts.ConflictingSymmetric | App.tsx:59-68 | the test does not depend on which course comes first |
| Conflicts.HourTestOverReports | App.tsx:60-63 | reading only the hour flags 10:00-10:30 against 10:45-11:30, which do not overlap |
| Conflicts.HourTestUnderReports | App.tsx:60-63 | reading only the hour misses 9:00-10:30 against 10:15-11:00, which share fifteen minutes |
| Suggestions.RowPairs | App.tsx:58-78 | the inner loop for course `i` flags exactly the conflicting `(i, k)` with `k` before its bound, in increasing `k` |
| Suggestions.PairsBefore | App.tsx:57-79 | after `i` outer rounds the flagged pairs are exactly the conflicting pairs whose first index is below `i`, in lexicographic order |
| Suggestions.ConflictPairsNonEmpty | App.tsx:57-79 | the scan flags some pair exactly when two positions `a < b` hold conflicting courses |
| Suggestions.ScanRow | App.tsx:58-78 | the inner loop pushes one conflict entry per flagged pair of its row, in order |
| Suggestions.ScanConflicts | App.tsx:57-79 | the two nested loops push one conflict entry per conflicting pair, in scan order |
| Suggestions.Generate | App.tsx:52-133 | the built list always holds, right after the conflict entries (all of kind `conflict`), the one credit entry for the credit total |
| Suggestions.GenerateAISuggestions | App.tsx:52-136 | the stored list is never the placeholder: it always holds the credit entry, with a `credits-*` id, right after the conflict entries |
| Suggestions.TallyCounts | App.tsx:118-121 | the `coursesByDay` reduce holds exactly the days that carry a course, each mapped to its number of courses |
| Suggestions.BusyDaysFrom | App.tsx:123-124 | the days enumerated are exactly those whose tally is at least 4, in strictly ascending order |
| EngineFacts.ConflictSuggestionsFirst | App.tsx:57-75 | conflict entries come first, one per flagged pair `i < j` of conflicting courses, each with key `conflict-i-j`, both titles in the message, `courses = [id_i, id_j]`, priority `high`; pairs in lexicographic order; no later entry is a conflict |
| EngineFacts.ConflictReportedIff | App.tsx:57-75 | for `i < j`, an entry with id `conflict-i-j` exists exactly when the two courses share a day and their hours overlap |
| EngineFacts.ConflictKindPresent | App.tsx:69-75 | some entry has type `conflict` exactly when the scan flagged a pair |
| EngineFacts.CreditEntryExactlyOnce | App.tsx:82-104 | exactly one credit entry, right after the conflicts: `credits-low`/recommendation/medium iff total < 20, `credits-high`/recommendation/high iff total > 35, `credits-good`/optimization/low otherwise |
| EngineFacts.FridayFreeExact | App.tsx:107-115 | a `friday-free` entry exists iff no course is on day 5; it then appears once, right after the credit entry, as the low-priority optimisation |
| EngineFacts.BusyKeysLast | App.tsx:117-133 | the overloaded-day entries close the list, one per busy day, and no other position carries a `busy-day` key |
| EngineFacts.BusyEntriesContent | App.tsx:123-131 | the overloaded-day entries follow the busy days in order, each a medium recommendation with id `busy-day-d` and the day's course count |
| EngineFacts.BusyKeysInOrder | App.tsx:123-131 | the keys of the closing entries are `busy-day-d` for the busy days in order |
| EngineFacts.BusyDayReportedIff | App.tsx:117-133 | a `busy-day-d` entry exists exactly when day `d` has at least 4 courses |
| EngineFacts.SuggestionIdsDistinct | App.tsx:69-131 | no two entries of the built list share an id, so they are valid React list keys |
| EngineFacts.FallbackUnreachable | App.tsx:135 | the built list is never empty, so the result is the built list whatever the placeholder list is |
| CourseModel.KeyTextInjective | App.tsx:70-127 | distinct keys spell distinct ids (`conflict-i-j`, the three credit ids, `friday-free`, `busy-day-d`) |
| Dashboard.TotalCredits | Dashboard.tsx:12 | the credit sum, absent credits counting 0, is non-negative when every credit is |
| Dashboard.TotalCreditsAppend | Dashboard.tsx:12 | the credit sum of a concatenation is the sum of the two sums |
| Dashboard.TotalMinutes | Dashboard.tsx:13-18 | the weekly total in minutes is non-negative when no course ends before it starts |
| Dashboard.DaysOf | Dashboard.tsx:20 | the distinct-day set holds exactly the days some course is on; it has at most as many days as there are courses and is empty iff the list is |
| Dashboard.RenderingTablesInjective | Dashboard.tsx:22-26 | the three priorities get three different colour classes and the three types three different badge labels (Dashboard.tsx:91-93) |
| Assistant.HasConflicts | AIAssistant.tsx:25-44 | the quick check returns true iff some pair `i < j` shares a day and passes the hour test; false for fewer than two courses |
| Assistant.HasConflictsAgreesWithEngine | AIAssistant.tsx:34-38 | the quick check holds exactly when the engine's list contains a `conflict` entry |
| Assistant.SumCredits | AIAssistant.tsx:46 | the assistant's credit total equals the dashboard's |
| Assistant.SumHoursMinutes | AIAssistant.tsx:48-52 | the numerator of the average, in minutes, equals the dashboard's weekly total |
| Assistant.AvgHoursPerDay | AIAssistant.tsx:47-53 | 0 for an empty list; otherwise weekly minutes over 60 times the distinct-day count, a divisor of at least 1 |
| Assistant.AnalyzeEnabledMeansCourses | AIAssistant.tsx:118 | the button is enabled iff no analysis runs and at least one day carries a course |
| Calendar.JsRem | ExportCalendar.tsx:17 | JavaScript's `%`: `a` is the quotient rounded toward zero times `b` plus the remainder; the remainder never has the opposite sign to `a` and is smaller than `b` in magnitude |
| Calendar.JsRemUnique | ExportCalendar.tsx:17 | those properties determine the remainder: any value below `b` in magnitude, differing from `a` by a multiple of `b` and not of the opposite sign is `JsRem(a, b)` |
| Calendar.DaysUntilTarget | ExportCalendar.tsx:17 | the offset lies in 1..7, lands on `dayOfWeek`, is 7 exactly when the day is today, and no smaller positive offset lands on it |
| Calendar.ByDayBijection | ExportCalendar.tsx:54 | the BYDAY table and its reading are inverse: each code names exactly one day |
| Calendar.CreditsText | ExportCalendar.tsx:52 | the credits print as their decimal text, or `undefined` when absent, on one line |
| Calendar.Description | ExportCalendar.tsx:52 | the DESCRIPTION value stays on one line when the professor and description do (its `\n` are two-character escapes) |
| Calendar.EventLines | ExportCalendar.tsx:46-57 | an event is eleven lines from BEGIN:VEVENT to END:VEVENT, with `UID:<id>@eduplan.ia`, the title and location verbatim, and the weekly RRULE with the day's code |
| Calendar.Document | ExportCalendar.tsx:27-60 | the document starts with the header text and ends with `END:VCALENDAR` |
| Calendar.BuildICalendar | ExportCalendar.tsx:27-60 | the accumulating loop produces the header text, the event texts in list order and the closing line |
| Calendar.EmptyDocument | ExportCalendar.tsx:27-60 | with no course the document is the header followed by `END:VCALENDAR` |
| Calendar.EventBlockAt | ExportCalendar.tsx:37-58 | entries `8 + 11 i` to `8 + 11 i + 11` of the line list, before joining, are course `i`'s block: exactly one block per course, in input order. They are lines of the document text only when no field holds a line feed (see `Calendar.DocumentLines`) |
| Calendar.DocumentLines | ExportCalendar.tsx:27-60 | when no field holds a line feed, the document splits back into the 8 header lines, the event lines and the closing line, `8 + 11 n + 1` lines |
| Calendar.MultiLineDescriptionBreaksEvent | ExportCalendar.tsx:52 | a description holding a line feed is written unescaped, so the DESCRIPTION entry itself spans several text lines |
| Calendar.UidInjective | ExportCalendar.tsx:47 | distinct course ids give distinct UID lines |
| Grid.Hours | CalendarView.tsx:10 | thirteen consecutive rows holding exactly the hours 8 to 20 |
| Grid.SlotCourse | CalendarView.tsx:12-18 | the lookup finds nothing iff no course covers the cell; otherwise it returns the first covering course in list order |
| Grid.WeekendNeverShown | CalendarView.tsx:9-16 | columns 0..4 show week days 1..5, so Sunday and Saturday courses are never found |
| Grid.HeightMinutes | CalendarView.tsx:20-25 | the block height in minutes equals the dashboard's duration of the course |
| Grid.CellAt | CalendarView.tsx:52-83 | a cell shows a block iff the first course covering it starts in that row; the block is that course with its duration |
| Grid.CellOfFirstCover | CalendarView.tsx:53-83 | for the first course covering a cell, the cell shows its block in its start row and is empty in every other row it covers |
| Host.AddCourse | App.tsx:24-30 | the old list unchanged, then exactly one new course with the given data and a numeric id |
| Host.AddCourseCredits | App.tsx:24-30 | adding a course adds its credits (absent counting 0) to the total |
| Host.Batch | App.tsx:38-41 | one new course per reviewed entry, with the entry's data, in order |
| Host.AppendBatch | App.tsx:38-42 | the old list is kept as a prefix, the reviewed entries follow in order, and the appended ids are pairwise distinct |
| Host.BatchIdsDistinct | App.tsx:40 | ids `<n1>-<i>` and `<n2>-<j>` differ when `i` and `j` do, whatever the two clock readings `n1` and `n2` |
| Host.BatchDistinct | App.tsx:38-41 | the ids within one appended batch are pairwise distinct, although each element reads the clock separately |
| Host.BatchIdNotSingleId | App.tsx:27-40 | a batch id never equals a single-add id, whatever the clocks read |
| Host.RequestReview | App.tsx:32-35 | the pending list (the dialog's `courses` prop) becomes the extracted courses and the open flag is set; the timetable is unchanged. The dialog's working copy is not part of this state (see "## Findings") |
| Host.ConfirmReview | App.tsx:37-45 | the reviewed courses are appended in order after the unchanged old list; the dialog closes and the pending list empties |
| Host.ConfirmReviewCredits | App.tsx:37-45 | confirming adds the batch's credits to the total |
| Host.CancelReview | App.tsx:47-50 | the dialog closes, the pending list empties, the timetable is unchanged |
| Review.Apply | ReviewCoursesDialog.tsx:38 | the edited field holds the new value and every other field is unchanged |
| Review.ApplyIdempotent | ReviewCoursesDialog.tsx:36-40 | repeating an edit changes nothing more; an edit to the value already held changes nothing |
| Review.EditAt | ReviewCoursesDialog.tsx:36-40 | the list keeps its length, every other row is unchanged, and the edited row changes only the edited field |
| Review.RemoveAt | ReviewCoursesDialog.tsx:43 | an in-range index removes exactly that row and keeps the others in order; an out-of-range index changes nothing |
| Review.HandleRemove | ReviewCoursesDialog.tsx:42-46 | removal shortens the list by one for an in-range index and always leaves edit mode |
| Review.Open | ReviewCoursesDialog.tsx:33-34 | a dialog instance starts on the courses it is created with, with no row in edit mode |
| Review.ToggleEditing | ReviewCoursesDialog.tsx:91-93 | the toggle leaves edit mode iff the row was the one being edited, and otherwise edits that row |
| Review.ToggleTwice | ReviewCoursesDialog.tsx:91-93 | pressing twice restores the state when it started on this row or on none |
| Review.Confirm | ReviewCoursesDialog.tsx:48-50 | the edited list reaches the host unchanged and in order; with the button enabled the timetable grows |
| Review.Mount | App.tsx:256-261 | App's first render has the dialog closed, nothing pending, and the single dialog instance created from the pending list `[]` |
| Review.Step | App.tsx:32-50 | one event on App with its dialog: only a press changes the timetable, and only by appending; an upload sets the pending list (the `courses` prop) to the extracted courses and opens the dialog, and a dismissal closes it with the dialog state kept; a closed dialog ignores every other event; an edit reaches only the row in edit mode (ReviewCoursesDialog.tsx:111), keeping the row count and the edit mode |
| Review.Run | App.tsx:17-50 | over any event sequence the old timetable stays a prefix of the new one, and a sequence without a press leaves it unchanged |
| Review.UploadAsWritten | App.tsx:32-35 | an upload opens the dialog and sets the pending list, but the mounted instance keeps its working copy |
| Review.EmptyDialogStaysEmpty | ReviewCoursesDialog.tsx:33-50 | an instance with an empty working copy keeps it empty through any events: no row to edit, remove or toggle, the confirm button disabled, the timetable unchanged |
| Review.ReviewNeverAddsAsWritten | App.tsx:256-261 | from App's first render, after any events, the working copy is `[]` and the review adds no course |
| Review.UploadNotShownAsWritten | ReviewCoursesDialog.tsx:33 | after uploading a non-empty list the dialog is open on the pending list but shows no row, and confirming adds nothing |
| Review.UploadCorrected | ReviewCoursesDialog.tsx:33 | with a reset on each opening, the working copy is the pending list and no row is in edit mode |
| Review.UploadConfirmCorrected | App.tsx:32-45 | with the reset, uploading then confirming appends the extracted courses in order, with distinct ids, after the unchanged timetable, and closes the dialog |
| Text.ParseNatToString | App.tsx:27 | reading back the decimal text of a number gives the number |
| Text.NatToStringInjective | App.tsx:70 | distinct numbers render as distinct texts |
| Text.SplitUnlines | ExportCalendar.tsx:27-60 | splitting line-feed-joined lines gives the lines back when none contains a line feed |

## Left out

- JSX rendering, Tailwind classes, icons, tabs and animations: presentation only.
- FileUploadZone.tsx and CourseForm.tsx are not part of this model: the first is timer-driven fake progress, the second form-state plumbing.
- `split(':').map(Number)` on time strings: times are already-parsed `(hour, minute)` pairs, so malformed strings and `NaN` hours are not modelled.
- `parseInt(day)` on the `Object.entries` keys: the keys are the integer days themselves, enumerated in the ascending order `Object.entries` gives integer keys.
- Calendar.DaysUntilTarget: days outside 0..6 are not modelled, because days are the type `0..6`. In the code such a day gives 7 or a negative offset (day -3 on a Saturday gives -2, a past date), and a non-numeric day gives `NaN`, which `|| 7` turns into 7.
- Real dates in the export (`new Date()`, `setDate`, `setHours`, `toISOString`): host clock and timezone. The three timestamps are given strings and `today.getDay()` is the parameter `currentDay`.
- `Date.now()`: the parameter `now`, or one reading per element `nows`.
- The JSON export (`JSON.stringify`), the Blob, URL and anchor download, `toast`, and the `setTimeout` of the analyse button: library and browser calls.
- Assistant.AvgHoursPerDay: kept as an exact ratio in minutes, without the floating-point division and `toFixed`.
- Dashboard.TotalMinutes: the fractional hours of `(end - start) / 60` are kept as the integer minutes `end - start`; the division by 60 is not modelled.
- Grid.HeightMinutes: kept in minutes, without the fractional hours and the CSS `span` that use them.
- A press of the confirm button carries one clock reading per row. A press whose readings do not match the rows is ignored by `Review.Step`; the app cannot produce one.
- Review.EditAt: requires an index of a rendered row, because the dialog only calls it from its row map. JavaScript would write a partial record at an out-of-range index.
- The contents of the placeholder `mockSuggestions` list: the list is a parameter and is proved unreachable.
- RFC 5545 conformance gaps are reproduced, not repaired. Lines end in LF, not CRLF (section 3.1). In the TEXT values of SUMMARY, DESCRIPTION and LOCATION, line feeds, backslashes, `,` and `;` are not escaped (section 3.3.11). A multi-line description therefore breaks its event over several lines (`Calendar.MultiLineDescriptionBreaksEvent`).
- The React state setters and re-rendering: each handler is a function from the old state to the new one.

## Findings

| source | as written | input that shows it | evidently intended | confidence | as-written member | corrected member |
|---|---|---|---|---|---|---|
| ReviewCoursesDialog.tsx:33 | `useState(courses)` reads the prop only when the instance is created, and App.tsx:256-261 renders one instance without a `key` while `coursesToReview` is still `[]` (App.tsx:21). The working copy stays `[]`, no row renders, and "Ajouter 0 cours" (ReviewCoursesDialog.tsx:266) stays disabled. | any upload, for instance the three extracted courses of the upload zone, followed by a press of the confirm button | the working copy is reset to the extracted courses on each opening (a `key` per upload, or an effect on `courses`), so confirming appends them | not executed | Review.UploadAsWritten, Review.UploadNotShownAsWritten | Review.UploadCorrected, Review.UploadConfirmCorrected |

=== FILE: assistant.dfy ===
/** The assistant panel of AIAssistant.tsx: a quick conflict check that
    repeats the engine's scan, the credit total, the average hours per
    day, and the condition that disables the analyse button. */
module Assistant {
  import opened CourseModel
  import opened Conflicts
  import opened Suggestions
  import Dashboard
  import Grid
  import EngineFacts

  /** `hasConflicts`: the engine's nested scan, returning at the first
      conflicting pair. */
  method HasConflicts(cs: seq<Course>) returns (r: bool)
    ensures r <==> SomeConflict(cs)
    ensures |cs| <= 1 ==> !r
  {
    var i := 0;
    while i < |cs|
      invariant 0 <= i <= |cs|
      invariant forall a, b :: 0 <= a < i && a < b < |cs| ==> !Conflicting(cs[a], cs[b])
    {
      var j := i + 1;
      while j < |cs|
        invariant i + 1 <= j <= |cs|
        invariant forall b :: i < b < j ==> !Conflicting(cs[i], cs[b])
      {
        if cs[i].info.dayOfWeek == cs[j].info.dayOfWeek {
          var start1, end1 := cs[i].info.startTime.hour, cs[i].info.endTime.hour;
          var start2, end2 := cs[j].info.startTime.hour, cs[j].info.endTime.hour;
          if (start1 >= start2 && start1 < end2) || (start2 >= start1 && start2 < end1) {
            assert ConflictAt(cs, i, j);
            return true;
          }
        }
        j := j + 1;
      }
      i := i + 1;
    }
    return false;
  }

  /** The quick check and the engine agree: there is a conflict exactly
      when the engine emits at least one `conflict` suggestion. */
  lemma {:induction false} HasConflictsAgreesWithEngine(cs: seq<Course>)
    ensures var r := Generate(cs);
      SomeConflict(cs) <==> exists k :: 0 <= k < |r| && r[k].kind == Conflict
  {
    EngineFacts.ConflictKindPresent(cs);
    ConflictPairsNonEmpty(cs);
  }

  /** `totalCredits`, the same `reduce` as the dashboard's, run as a loop. */
  method SumCredits(cs: seq<Course>) returns (sum: int)
    ensures sum == Dashboard.TotalCredits(cs)
  {
    sum := 0;
    var i := 0;
    while i < |cs|
      invariant 0 <= i <= |cs|
      invariant sum + Dashboard.TotalCredits(cs[i..]) == Dashboard.TotalCredits(cs)
    {
      assert cs[i..][1..] == cs[i + 1..];
      sum := sum + cs[i].info.CreditsOrZero();
      i := i + 1;
    }
  }

  /** The numerator of `avgHoursPerDay`, each course contributing
      `endHour - startHour + (endMin - startMin) / 60` hours, kept in
      minutes. It is the dashboard's weekly total. */
  method SumHoursMinutes(cs: seq<Course>) returns (sum: int)
    ensures sum == Dashboard.TotalMinutes(cs)
  {
    sum := 0;
    var i := 0;
    while i < |cs|
      invariant 0 <= i <= |cs|
      invariant sum + Dashboard.TotalMinutes(cs[i..]) == Dashboard.TotalMinutes(cs)
    {
      assert cs[i..][1..] == cs[i + 1..];
      sum := sum + Grid.HeightMinutes(cs[i].info);
      i := i + 1;
    }
  }

  /** A quotient `num / den` kept exact. */
  datatype Ratio = Ratio(num: int, den: nat)

  /** `avgHoursPerDay` in hours as `minutes / (60 * days)`: `0` for an
      empty list, otherwise the weekly minutes over the number of distinct
      days, which is then at least 1, so the division is defined. */
  method AvgHoursPerDay(cs: seq<Course>) returns (r: Ratio)
    ensures r.den >= 1
    ensures |cs| == 0 ==> r.num == 0
    ensures |cs| > 0 ==> r.num == Dashboard.TotalMinutes(cs) && r.den == 60 * Dashboard.DaysWithCourses(cs)
    ensures (forall k :: 0 <= k < |cs| ==> cs[k].info.startTime.Minutes() <= cs[k].info.endTime.Minutes())
            ==> r.num >= 0
  {
    if |cs| > 0 {
      var minutes := SumHoursMinutes(cs);
      r := Ratio(minutes, 60 * Dashboard.DaysWithCourses(cs));
    } else {
      r := Ratio(0, 1);
    }
  }

  /** `disabled={analyzing || courses.length === 0}`. */
  predicate AnalyzeDisabled(analyzing: bool, cs: seq<Course>) {
    analyzing || |cs| == 0
  }

  /** When the analyse button is enabled there is a course, so the engine
      has a day to count and the average's divisor is positive. */
  lemma AnalyzeEnabledMeansCourses(analyzing: bool, cs: seq<Course>)
    ensures !AnalyzeDisabled(analyzing, cs) <==> !analyzing && Dashboard.DaysWithCourses(cs) >= 1
  {
  }
}

=== FILE: calendar.dfy ===
/** The iCalendar export of ExportCalendar.tsx: the day offset of the
    next occurrence of a course's week day, and the text document built by
    string accumulation — a fixed VCALENDAR header (section 3.4 of RFC
    5545), one VEVENT block per course (section 3.6.1) with a weekly RRULE
    (section 3.8.5.3), and the closing line. Lines end with a bare line
    feed, as the source writes them. The three timestamps of an event come
    from the host clock and are taken as given strings. */
module Calendar {
  import opened Wrappers
  import opened Text
  import opened CourseModel

  // ---------------------------------------------------------------------
  // Day offset

  /** The quotient rounded toward zero, the one JavaScript's `%` pairs with. */
  function JsQuot(a: int, b: int): int
    requires b > 0
  {
    if a >= 0 then a / b else -((-a) / b)
  }

  /** JavaScript's `%`, whose result takes the sign of the dividend. */
  function JsRem(a: int, b: int): (r: int)
    requires b > 0
    ensures -b < r < b
    ensures a == JsQuot(a, b) * b + r
    ensures a >= 0 ==> r >= 0
    ensures a <= 0 ==> r <= 0
    ensures a >= 0 ==> r == a % b
    ensures a < 0 ==> r == -((-a) % b)
  {
    if a >= 0 then a % b else -((-a) % b)
  }

  /** The remainder is determined by its defining properties: a value below
      `b` in magnitude, congruent to `a` modulo `b` and never of the opposite
      sign to `a` is `JsRem(a, b)`. */
  lemma JsRemUnique(a: int, b: int, q: int, t: int)
    requires b > 0 && -b < t < b
    requires a - t == q * b
    requires a >= 0 ==> t >= 0
    requires a <= 0 ==> t <= 0
    ensures t == JsRem(a, b)
  {
    var r := JsRem(a, b);
    var p := JsQuot(a, b);
    assert a - r == p * b;
    MultiplesDiffer(q, p, b);
  }

  /** Two multiples of `b` closer than `b` are equal. */
  lemma MultiplesDiffer(q: int, p: int, b: int)
    requires b > 0
    requires -b < q * b - p * b < b
    ensures q == p
  {
    var d := q - p;
    assert q * b - p * b == d * b;
    // the sign of `d` decides; each case is closed by the bounds on `d * b`
    if d > 0 {
    } else if d < 0 {
    }
  }

  /** `k` days after week day `from` it is week day `to`. */
  predicate Lands(from: int, k: int, to: int) {
    (from + k) % 7 == to
  }

  /** `(dayOfWeek - currentDay + 7) % 7 || 7`: days from today to the next
      occurrence of `dayOfWeek`, a full week when it is today. */
  function DaysUntilTarget(dayOfWeek: Weekday, currentDay: Weekday): (r: int)
    ensures 1 <= r <= 7
    ensures Lands(currentDay, r, dayOfWeek)
    ensures r == 7 <==> dayOfWeek == currentDay
    ensures forall k :: 1 <= k < r ==> !Lands(currentDay, k, dayOfWeek)
  {
    var m := JsRem(dayOfWeek - currentDay + 7, 7);
    if m == 0 then 7 else m
  }

  // ---------------------------------------------------------------------
  // Weekday codes

  /** `['SU', 'MO', 'TU', 'WE', 'TH', 'FR', 'SA'][dayOfWeek]`, the weekday
      codes of section 3.3.10 of RFC 5545. */
  function ByDay(d: Weekday): string {
    ["SU", "MO", "TU", "WE", "TH", "FR", "SA"][d]
  }

  /** Reads a weekday code back (an independent inverse of `ByDay`). */
  function DayOfCode(s: string): Option<Weekday> {
    if s == "SU" then Some(0)
    else if s == "MO" then Some(1)
    else if s == "TU" then Some(2)
    else if s == "WE" then Some(3)
    else if s == "TH" then Some(4)
    else if s == "FR" then Some(5)
    else if s == "SA" then Some(6)
    else None
  }

  /** The code table is a bijection between the seven days and the seven
      codes. */
  lemma ByDayBijection(d: Weekday, s: string)
    ensures DayOfCode(ByDay(d)) == Some(d)
    ensures DayOfCode(s) == Some(d) <==> ByDay(d) == s
  {
  }

  // ---------------------------------------------------------------------
  // Event text

  /** `${course.credits}`: the number in decimal, or `undefined` when absent. */
  function CreditsText(credits: Option<int>): (s: string)
    ensures SingleLine(s)
    ensures credits.Some? ==> s == IntToString(credits.value)
    ensures credits.None? ==> s == "undefined"
  {
    match credits
    case Some(v) =>
      var s := IntToString(v);
      assert forall k :: 0 <= k < |s| ==> s[k] != '\n' by {
        if v < 0 {
          assert s == "-" + NatToString(-v);
          assert IsDigits(NatToString(-v));
          assert forall k :: 1 <= k < |s| ==> s[k] == NatToString(-v)[k - 1];
        }
      }
      s
    case None => "undefined"
  }

  /** The DESCRIPTION value. Its two `\n` are the two-character TEXT escape
      of section 3.3.11 of RFC 5545, not line feeds. */
  function Description(c: CourseInfo): (s: string)
    ensures SingleLine(c.professor) && SingleLine(c.DescriptionOrEmpty()) ==> SingleLine(s)
  {
    "Professeur: " + c.professor + "\\nCrédits: " + CreditsText(c.credits) + " ECTS\\n"
      + c.DescriptionOrEmpty()
  }

  /** The host-clock timestamps of one event, already formatted. */
  datatype Stamps = Stamps(dtstamp: string, dtstart: string, dtend: string)

  const UidDomain := "@eduplan.ia"

  function UidLine(c: Course): string {
    "UID:" + c.id + UidDomain
  }

  /** The eleven lines of one VEVENT block. */
  function EventLines(c: Course, st: Stamps): (r: seq<string>)
    ensures |r| == 11
    ensures r[0] == "BEGIN:VEVENT" && r[10] == "END:VEVENT"
    ensures r[1] == UidLine(c)
    ensures r[5] == "SUMMARY:" + c.info.title
    ensures r[7] == "LOCATION:" + c.info.location
    ensures r[8] == "RRULE:FREQ=WEEKLY;BYDAY=" + ByDay(c.info.dayOfWeek)
  {
    [ "BEGIN:VEVENT",
      UidLine(c),
      "DTSTAMP:" + st.dtstamp,
      "DTSTART:" + st.dtstart,
      "DTEND:" + st.dtend,
      "SUMMARY:" + c.info.title,
      "DESCRIPTION:" + Description(c.info),
      "LOCATION:" + c.info.location,
      "RRULE:FREQ=WEEKLY;BYDAY=" + ByDay(c.info.dayOfWeek),
      "STATUS:CONFIRMED",
      "END:VEVENT" ]
  }

  /** The fixed header of the document (sections 3.4 and 3.7 of RFC 5545,
      with the `X-WR-` extensions). */
  const HeaderLines: seq<string> := [
    "BEGIN:VCALENDAR",
    "VERSION:2.0",
    "PRODID:-//EduPlan IA//Emploi du Temps//FR",
    "CALSCALE:GREGORIAN",
    "METHOD:PUBLISH",
    "X-WR-CALNAME:Emploi du Temps - EduPlan",
    "X-WR-TIMEZONE:Europe/Paris",
    "X-WR-CALDESC:Emploi du temps " + "généré par EduPlan IA"]

  const Footer := "END:VCALENDAR"

  /** The blocks one after the other. */
  function Flatten(blocks: seq<seq<string>>): seq<string> {
    if |blocks| == 0 then [] else blocks[0] + Flatten(blocks[1..])
  }

  lemma {:induction false} FlattenAppend(a: seq<seq<string>>, b: seq<seq<string>>)
    ensures Flatten(a + b) == Flatten(a) + Flatten(b)
  {
    if |a| == 0 {
      assert a + b == b;
    } else {
      assert (a + b)[1..] == a[1..] + b;
      FlattenAppend(a[1..], b);
    }
  }

  /** With every block eleven lines long, block `i` sits at lines
      `11 i .. 11 i + 11`. */
  lemma {:induction false} FlattenBlockAt(blocks: seq<seq<string>>, i: nat)
    requires forall k :: 0 <= k < |blocks| ==> |blocks[k]| == 11
    requires i < |blocks|
    ensures |Flatten(blocks)| == 11 * |blocks|
    ensures Flatten(blocks)[11 * i .. 11 * i + 11] == blocks[i]
  {
    var rest := Flatten(blocks[1..]);
    if i == 0 {
      if |blocks| > 1 {
        FlattenBlockAt(blocks[1..], 0);
      }
      assert (blocks[0] + rest)[..11] == blocks[0];
    } else {
      FlattenBlockAt(blocks[1..], i - 1);
      assert (blocks[0] + rest)[11 * i .. 11 * i + 11] == rest[11 * (i - 1) .. 11 * (i - 1) + 11];
    }
  }

  lemma {:induction false} FlattenSingleLine(blocks: seq<seq<string>>)
    requires forall b, k :: 0 <= b < |blocks| && 0 <= k < |blocks[b]| ==> SingleLine(blocks[b][k])
    ensures forall k :: 0 <= k < |Flatten(blocks)| ==> SingleLine(Flatten(blocks)[k])
  {
    if |blocks| > 0 {
      FlattenSingleLine(blocks[1..]);
      assert forall k :: 0 <= k < |Flatten(blocks[1..])| ==> SingleLine(Flatten(blocks[1..])[k]);
      assert forall k :: 0 <= k < |blocks[0]| ==> SingleLine(blocks[0][k]);
    }
  }

  /** Appending one block's text extends the joined text by that block. */
  lemma UnlinesFlattenSnoc(head: seq<string>, done: seq<seq<string>>, block: seq<string>)
    ensures Unlines(head + Flatten(done + [block])) == Unlines(head + Flatten(done)) + Unlines(block)
  {
    FlattenAppend(done, [block]);
    assert Flatten([block]) == block + Flatten([]);
    assert head + Flatten(done + [block]) == (head + Flatten(done)) + block;
    UnlinesAppend(head + Flatten(done), block);
  }

  /** One block of lines per course, in list order. */
  function EventBlocks(cs: seq<Course>, stamps: seq<Stamps>): (r: seq<seq<string>>)
    requires |stamps| == |cs|
    ensures |r| == |cs|
    ensures forall i :: 0 <= i < |cs| ==> r[i] == EventLines(cs[i], stamps[i])
  {
    seq(|cs|, i requires 0 <= i < |cs| => EventLines(cs[i], stamps[i]))
  }

  lemma EventBlocksSnoc(cs: seq<Course>, stamps: seq<Stamps>, i: nat)
    requires |stamps| == |cs| && i < |cs|
    ensures EventBlocks(cs[..i + 1], stamps[..i + 1])
            == EventBlocks(cs[..i], stamps[..i]) + [EventLines(cs[i], stamps[i])]
  {
  }

  /** The whole document: header, event blocks, closing line (which has no
      line feed after it). */
  function Document(cs: seq<Course>, stamps: seq<Stamps>): (r: string)
    requires |stamps| == |cs|
    ensures Unlines(HeaderLines) <= r
    ensures |r| >= |Footer| && r[|r| - |Footer|..] == "END:VCALENDAR"
  {
    var events := Flatten(EventBlocks(cs, stamps));
    UnlinesAppend(HeaderLines, events);
    Unlines(HeaderLines + events) + Footer
  }

  /** The text accumulated once the first `i` courses are written. */
  function PartialDocument(cs: seq<Course>, stamps: seq<Stamps>, i: nat): string
    requires |stamps| == |cs| && i <= |cs|
  {
    Unlines(HeaderLines + Flatten(EventBlocks(cs[..i], stamps[..i])))
  }

  lemma PartialDocumentStep(cs: seq<Course>, stamps: seq<Stamps>, i: nat)
    requires |stamps| == |cs| && i < |cs|
    ensures PartialDocument(cs, stamps, i + 1)
            == PartialDocument(cs, stamps, i) + Unlines(EventLines(cs[i], stamps[i]))
  {
    EventBlocksSnoc(cs, stamps, i);
    UnlinesFlattenSnoc(HeaderLines, EventBlocks(cs[..i], stamps[..i]), EventLines(cs[i], stamps[i]));
  }

  lemma PartialDocumentEnds(cs: seq<Course>, stamps: seq<Stamps>)
    requires |stamps| == |cs|
    ensures PartialDocument(cs, stamps, 0) == Unlines(HeaderLines)
    ensures PartialDocument(cs, stamps, |cs|) + Footer == Document(cs, stamps)
  {
    assert HeaderLines + Flatten(EventBlocks(cs[..0], stamps[..0])) == HeaderLines;
    assert cs[..|cs|] == cs && stamps[..|cs|] == stamps;
  }

  /** `generateICalendar` as the source writes it: start from the header
      text and append one event text per course, then the closing line. */
  method BuildICalendar(cs: seq<Course>, stamps: seq<Stamps>) returns (content: string)
    requires |stamps| == |cs|
    ensures content == Document(cs, stamps)
  {
    PartialDocumentEnds(cs, stamps);
    content := Unlines(HeaderLines);
    var i := 0;
    while i < |cs|
      invariant 0 <= i <= |cs|
      invariant content == PartialDocument(cs, stamps, i)
    {
      PartialDocumentStep(cs, stamps, i);
      content := content + Unlines(EventLines(cs[i], stamps[i]));
      i := i + 1;
    }
    content := content + Footer;
  }

  /** With no course the document is the header followed by the closing line. */
  lemma EmptyDocument()
    ensures Document([], []) == Unlines(HeaderLines) + "END:VCALENDAR"
  {
    assert HeaderLines + Flatten(EventBlocks([], [])) == HeaderLines;
  }

  /** Lines `8 + 11 i .. 8 + 11 i + 11` of the joined lines are course `i`'s
      VEVENT block, so blocks follow the list order one per course. */
  lemma EventBlockAt(cs: seq<Course>, stamps: seq<Stamps>, i: nat)
    requires |stamps| == |cs| && i < |cs|
    ensures var lines := HeaderLines + Flatten(EventBlocks(cs, stamps));
      && |lines| == 8 + 11 * |cs|
      && lines[8 + 11 * i .. 8 + 11 * i + 11] == EventLines(cs[i], stamps[i])
  {
    var blocks := EventBlocks(cs, stamps);
    FlattenBlockAt(blocks, i);
    var events := Flatten(blocks);
    assert (HeaderLines + events)[8 + 11 * i .. 8 + 11 * i + 11] == events[11 * i .. 11 * i + 11];
  }

  // ---------------------------------------------------------------------
  // Line structure

  /** The course's free-text fields and its timestamps hold no line feed. */
  predicate EventFieldsSingleLine(c: Course, st: Stamps) {
    && SingleLine(c.id) && SingleLine(c.info.title) && SingleLine(c.info.location)
    && SingleLine(c.info.professor) && SingleLine(c.info.DescriptionOrEmpty())
    && SingleLine(st.dtstamp) && SingleLine(st.dtstart) && SingleLine(st.dtend)
  }

  lemma EventLinesSingle(c: Course, st: Stamps)
    requires EventFieldsSingleLine(c, st)
    ensures forall k :: 0 <= k < 11 ==> SingleLine(EventLines(c, st)[k])
  {
    var r := EventLines(c, st);
    assert SingleLine(Description(c.info));
    assert SingleLine(ByDay(c.info.dayOfWeek));
    forall k | 0 <= k < 11
      ensures SingleLine(r[k])
    {
    }
  }

  /** No header line holds a line feed. The solver checks a literal
      character by character: the proof is split into halves because all
      eight lines in one proof come close to its resource limit, and the
      last header line is written as two literals because the solver does
      not reliably close it as one. */
  lemma HeaderSingleLine()
    ensures forall k :: 0 <= k < |HeaderLines| ==> SingleLine(HeaderLines[k])
  {
    HeaderFirstHalfSingleLine();
    HeaderSecondHalfSingleLine();
  }

  lemma HeaderFirstHalfSingleLine()
    ensures forall k :: 0 <= k < 4 ==> SingleLine(HeaderLines[k])
  {
    forall k | 0 <= k < 4
      ensures SingleLine(HeaderLines[k])
    {
    }
  }

  lemma HeaderSecondHalfSingleLine()
    ensures forall k :: 4 <= k < 8 ==> SingleLine(HeaderLines[k])
  {
    forall k | 4 <= k < 8
      ensures SingleLine(HeaderLines[k])
    {
    }
  }

  /** Nothing is escaped in the free text: a description holding a line
      feed puts one into the DESCRIPTION line, so the event no longer fits
      on its eleven lines of text. */
  lemma MultiLineDescriptionBreaksEvent(c: Course, st: Stamps)
    requires !SingleLine(c.info.DescriptionOrEmpty())
    ensures !SingleLine(EventLines(c, st)[6])
  {
    var desc := c.info.DescriptionOrEmpty();
    var i :| 0 <= i < |desc| && desc[i] == '\n';
    var pre := "DESCRIPTION:" + "Professeur: " + c.info.professor + "\\nCrédits: "
      + CreditsText(c.info.credits) + " ECTS\\n";
    assert EventLines(c, st)[6] == pre + desc;
    assert (pre + desc)[|pre| + i] == '\n';
  }

  /** When no field holds a line feed, the document splits back into
      exactly the header, one eleven-line block per course and the closing
      line: `8 + 11 n + 1` lines. */
  lemma {:induction false} DocumentLines(cs: seq<Course>, stamps: seq<Stamps>)
    requires |stamps| == |cs|
    requires forall i :: 0 <= i < |cs| ==> EventFieldsSingleLine(cs[i], stamps[i])
    ensures Split(Document(cs, stamps)) == HeaderLines + Flatten(EventBlocks(cs, stamps)) + [Footer]
    ensures |Split(Document(cs, stamps))| == 8 + 11 * |cs| + 1
  {
    var blocks := EventBlocks(cs, stamps);
    forall b, k | 0 <= b < |blocks| && 0 <= k < |blocks[b]|
      ensures SingleLine(blocks[b][k])
    {
      EventLinesSingle(cs[b], stamps[b]);
    }
    FlattenSingleLine(blocks);
    var events := Flatten(blocks);
    var lines := HeaderLines + events;
    HeaderSingleLine();
    forall k | 0 <= k < |lines|
      ensures SingleLine(lines[k])
    {
      if k >= 8 {
        assert lines[k] == events[k - 8];
      } else {
        assert lines[k] == HeaderLines[k];
      }
    }
    SplitUnlines(lines, Footer);
    if |cs| > 0 {
      FlattenBlockAt(blocks, 0);
    }
  }

  /** Each course's UID line is `UID:<id>@eduplan.ia`, so distinct course
      ids give distinct UIDs. */
  lemma UidInjective(a: Course, b: Course)
    requires a.id != b.id
    ensures UidLine(a) != UidLine(b)
  {
    assert UidLine(a)[4 .. 4 + |a.id|] == a.id;
    assert UidLine(b)[4 .. 4 + |b.id|] == b.id;
  }
}

=== FILE: conflicts.dfy ===
/** The pairwise conflict predicate that the suggestion engine (App.tsx)
    and the assistant's quick check (AIAssistant.tsx) both spell out. */
module Conflicts {
  import opened CourseModel

  /** The hour-granular overlap test: one course's start hour lies inside
      the other's `[start hour, end hour)` range. Minutes are ignored. */
  predicate HourOverlap(s1: int, e1: int, s2: int, e2: int) {
    (s1 >= s2 && s1 < e2) || (s2 >= s1 && s2 < e1)
  }

  /** Two courses conflict when they share a day and their hours overlap. */
  predicate Conflicting(a: Course, b: Course) {
    && a.info.dayOfWeek == b.info.dayOfWeek
    && HourOverlap(a.info.startTime.hour, a.info.endTime.hour,
                   b.info.startTime.hour, b.info.endTime.hour)
  }

  /** Positions `a < b` of the list hold conflicting courses. */
  predicate ConflictAt(cs: seq<Course>, a: int, b: int) {
    0 <= a < b < |cs| && Conflicting(cs[a], cs[b])
  }

  /** Some pair of distinct positions of the list conflicts. */
  predicate SomeConflict(cs: seq<Course>) {
    exists a, b :: 0 <= a < b < |cs| && ConflictAt(cs, a, b)
  }

  lemma ConflictingSymmetric(a: Course, b: Course)
    ensures Conflicting(a, b) <==> Conflicting(b, a)
  {
  }

  /** On well-formed hour ranges the disjunction is the usual half-open
      interval overlap `s1 < e2 && s2 < e1`. Without well-formedness only
      the right-to-left direction holds. */
  lemma HourOverlapIsIntervalOverlap(s1: int, e1: int, s2: int, e2: int)
    ensures s1 < e2 && s2 < e1 ==> HourOverlap(s1, e1, s2, e2)
    ensures s1 < e1 && s2 < e2 ==> (HourOverlap(s1, e1, s2, e2) <==> s1 < e2 && s2 < e1)
  {
  }

  /** Hour `h` lies in the half-open range `[s, e)`. */
  predicate InHours(h: int, s: int, e: int) {
    s <= h < e
  }

  /** The two ranges overlap exactly when some whole hour lies in both. */
  lemma HourOverlapSharesAnHour(s1: int, e1: int, s2: int, e2: int)
    requires s1 < e1 && s2 < e2
    ensures HourOverlap(s1, e1, s2, e2) <==> exists h :: InHours(h, s1, e1) && InHours(h, s2, e2)
  {
    if HourOverlap(s1, e1, s2, e2) {
      var h := if s1 >= s2 then s1 else s2;
      assert InHours(h, s1, e1) && InHours(h, s2, e2);
    }
  }

  /** Minute-exact overlap of two courses' `[start, end)` times. */
  predicate MinuteOverlap(a: Course, b: Course) {
    && a.info.startTime.Minutes() < b.info.endTime.Minutes()
    && b.info.startTime.Minutes() < a.info.endTime.Minutes()
  }

  /** Truncating to hours reports 10:00-10:30 and 10:45-11:30 as
      conflicting although they do not overlap. */
  lemma HourTestOverReports(a: Course, b: Course)
    requires a.info.dayOfWeek == b.info.dayOfWeek
    requires a.info.startTime == Time(10, 0) && a.info.endTime == Time(10, 30)
    requires b.info.startTime == Time(10, 45) && b.info.endTime == Time(11, 30)
    ensures Conflicting(a, b) && !MinuteOverlap(a, b)
  {
  }

  /** Truncating to hours misses 9:00-10:30 against 10:15-11:00, which
      share a quarter of an hour. */
  lemma HourTestUnderReports(a: Course, b: Course)
    requires a.info.dayOfWeek == b.info.dayOfWeek
    requires a.info.startTime == Time(9, 0) && a.info.endTime == Time(10, 30)
    requires b.info.startTime == Time(10, 15) && b.info.endTime == Time(11, 0)
    ensures !Conflicting(a, b) && MinuteOverlap(a, b)
  {
  }
}

=== FILE: course.dfy ===
/** The timetable's records: a course and an advisory suggestion. */
module CourseModel {
  import opened Wrappers
  import opened Text

  /** Day of the week, 0 = Sunday, 1 = Monday, ..., 6 = Saturday. */
  type Weekday = d: int | 0 <= d <= 6

  const Friday: Weekday := 5

  /** A wall-clock time, the `[hour, minute]` that `split(':').map(Number)`
      reads out of an `"HH:MM"` string. */
  datatype Time = Time(hour: nat, minute: nat) {
    /** Minutes since midnight. */
    function Minutes(): nat {
      hour * 60 + minute
    }
  }

  /** A course before the host has given it an id (`Omit<Course, 'id'>`):
      what the form produces and what the review dialog edits. */
  datatype CourseInfo = CourseInfo(
    title: string,
    professor: string,
    location: string,
    startTime: Time,
    endTime: Time,
    dayOfWeek: Weekday,
    color: string,
    description: Option<string>,
    credits: Option<int>)
  {
    /** `credits || 0`: an absent credit weight counts as zero. */
    function CreditsOrZero(): int {
      credits.GetOr(0)
    }

    /** `description || ''`. */
    function DescriptionOrEmpty(): string {
      description.GetOr("")
    }
  }

  /** A course of the active timetable: its data plus the host-assigned id. */
  datatype Course = Course(id: string, info: CourseInfo)

  /** `AISuggestion.type`: what a suggestion means, not how urgent it is. */
  datatype SuggestionType = Optimization | Conflict | Recommendation

  /** `AISuggestion.priority`, independent of the type. */
  datatype Priority = Low | Medium | High

  /** French day names, indexed by `Weekday`. */
  function DayName(d: Weekday): string {
    ["Dimanche", "Lundi", "Mardi", "Mercredi", "Jeudi", "Vendredi", "Samedi"][d]
  }

  /** What a suggestion's id is made from; `Text` spells the id. */
  datatype SuggestionKey =
    | ConflictKey(first: nat, second: nat)
    | CreditsLow
    | CreditsHigh
    | CreditsGood
    | FridayFree
    | BusyDay(day: Weekday)
  {
    function Text(): string {
      match this
      case ConflictKey(i, j) => "conflict-" + NatToString(i) + "-" + NatToString(j)
      case CreditsLow => "credits-low"
      case CreditsHigh => "credits-high"
      case CreditsGood => "credits-good"
      case FridayFree => "friday-free"
      case BusyDay(d) => "busy-day-" + NatToString(d)
    }
  }

  /** What a suggestion's message is made from; `Text` spells the message. */
  datatype Message =
    | ConflictMessage(firstTitle: string, secondTitle: string)
    | LowLoadMessage(lowTotal: int)
    | HighLoadMessage(highTotal: int)
    | BalancedLoadMessage(balancedTotal: int)
    | FreeFridayMessage
    | BusyDayMessage(busyDay: Weekday, count: nat)
  {
    function Text(): string {
      match this
      case ConflictMessage(a, b) =>
        "Conflit détecté entre \"" + a + "\" et \"" + b + "\""
      case LowLoadMessage(t) =>
        "Vous avez " + IntToString(t)
        + " crédits. Pensez à ajouter des cours pour atteindre 30 crédits recommandés."
      case HighLoadMessage(t) =>
        "Attention : " + IntToString(t)
        + " crédits peut être une charge trop importante. Considérez alléger votre programme."
      case BalancedLoadMessage(t) =>
        "Excellent ! " + IntToString(t) + " crédits est une charge équilibrée pour ce semestre."
      case FreeFridayMessage =>
        "Vendredi est libre - parfait pour les projets de groupe et révisions !"
      case BusyDayMessage(d, n) =>
        DayName(d) + " a " + NatToString(n) + " cours. Prévoyez des pauses régulières."
    }
  }

  /** An advisory record; `courses` refers to course ids, it does not own courses. */
  datatype Suggestion = Suggestion(
    key: SuggestionKey,
    kind: SuggestionType,
    message: Message,
    courses: Option<seq<string>>,
    priority: Priority)
  {
    /** `AISuggestion.id`. */
    function Id(): string {
      key.Text()
    }
  }

  /** The characters at positions 0, 1 and 8 of an id, which already tell
      the kinds of key apart. */
  function IdHead(s: string): (char, char, char)
    requires |s| >= 9
  {
    (s[0], s[1], s[8])
  }

  lemma IdHeadOf(k: SuggestionKey)
    ensures |k.Text()| >= 9
    ensures IdHead(k.Text()) == match k
      case ConflictKey(_, _) => ('c', 'o', '-')
      case CreditsLow => ('c', 'r', 'l')
      case CreditsHigh => ('c', 'r', 'h')
      case CreditsGood => ('c', 'r', 'g')
      case FridayFree => ('f', 'r', 'r')
      case BusyDay(_) => ('b', 'u', '-')
  {
    match k
    case ConflictKey(i, j) =>
      assert k.Text() == "conflict-" + (NatToString(i) + "-" + NatToString(j));
    case BusyDay(d) =>
      assert k.Text() == "busy-day-" + NatToString(d);
    case _ =>
  }

  /** Distinct keys spell distinct ids. */
  lemma KeyTextInjective(a: SuggestionKey, b: SuggestionKey)
    requires a != b
    ensures a.Text() != b.Text()
  {
    if a.ConflictKey? && b.ConflictKey? {
      ConflictTextInjective(a.first, a.second, b.first, b.second);
    } else if a.BusyDay? && b.BusyDay? {
      BusyTextInjective(a.day, b.day);
    } else {
      IdHeadOf(a);
      IdHeadOf(b);
      assert IdHead(a.Text()) != IdHead(b.Text());
    }
  }

  lemma ConflictTextInjective(i: nat, j: nat, k: nat, l: nat)
    requires (i, j) != (k, l)
    ensures ConflictKey(i, j).Text() != ConflictKey(k, l).Text()
  {
    var a, b := NatToString(i), NatToString(j);
    var c, d := NatToString(k), NatToString(l);
    var s, t := a + ['-'] + b, c + ['-'] + d;
    assert ConflictKey(i, j).Text() == "conflict-" + s;
    assert ConflictKey(k, l).Text() == "conflict-" + t;
    if s == t {
      assert '-' !in a by { assert IsDigits(a); }
      assert '-' !in c by { assert IsDigits(c); }
      SeparatorSplit(a, b, c, d, '-');
      if i != k {
        NatToStringInjective(i, k);
      } else {
        NatToStringInjective(j, l);
      }
    } else {
      PrefixCancel("conflict-", s, t);
    }
  }

  /** A common prefix keeps distinct strings distinct. */
  lemma PrefixCancel(p: string, x: string, y: string)
    requires x != y
    ensures p + x != p + y
  {
    assert (p + x)[|p|..] == x;
    assert (p + y)[|p|..] == y;
  }

  lemma BusyTextInjective(d: Weekday, e: Weekday)
    requires d != e
    ensures BusyDay(d).Text() != BusyDay(e).Text()
  {
    NatToStringInjective(d, e);
    var prefix := "busy-day-";
    assert BusyDay(d).Text()[|prefix|..] == NatToString(d);
    assert BusyDay(e).Text()[|prefix|..] == NatToString(e);
  }

  /** No two entries share an id. */
  predicate DistinctIds(ss: seq<Suggestion>) {
    forall a, b :: 0 <= a < b < |ss| ==> ss[a].Id() != ss[b].Id()
  }
}

=== FILE: dashboard.dfy ===
/** The dashboard's aggregates over the course list (Dashboard.tsx):
    credit total, weekly minutes, distinct days, and the colour and badge
    tables used to render suggestions. */
module Dashboard {
  import opened CourseModel

  /** `courses.reduce((sum, c) => sum + (c.credits || 0), 0)`. */
  function TotalCredits(cs: seq<Course>): (r: int)
    ensures (forall k :: 0 <= k < |cs| ==> cs[k].info.CreditsOrZero() >= 0) ==> r >= 0
  {
    if |cs| == 0 then 0 else cs[0].info.CreditsOrZero() + TotalCredits(cs[1..])
  }

  /** Credits add up across concatenation, so appending a course adds its
      weight (absent counting 0) and nothing else. */
  lemma {:induction false} TotalCreditsAppend(a: seq<Course>, b: seq<Course>)
    ensures TotalCredits(a + b) == TotalCredits(a) + TotalCredits(b)
  {
    if |a| == 0 {
      assert a + b == b;
    } else {
      assert (a + b)[1..] == a[1..] + b;
      TotalCreditsAppend(a[1..], b);
    }
  }

  /** One course's length in minutes, `endH*60 + endM - (startH*60 + startM)`. */
  function DurationMinutes(c: CourseInfo): int {
    c.endTime.Minutes() - c.startTime.Minutes()
  }

  /** `totalHours * 60`: the summed durations, kept in whole minutes. */
  function TotalMinutes(cs: seq<Course>): (r: int)
    ensures (forall k :: 0 <= k < |cs| ==> cs[k].info.startTime.Minutes() <= cs[k].info.endTime.Minutes()) ==> r >= 0
  {
    if |cs| == 0 then 0 else DurationMinutes(cs[0].info) + TotalMinutes(cs[1..])
  }

  /** `new Set(courses.map(c => c.dayOfWeek))`. */
  function DaysOf(cs: seq<Course>): (r: set<Weekday>)
    ensures forall d :: d in r <==> exists k :: 0 <= k < |cs| && cs[k].info.dayOfWeek == d
    ensures |r| <= |cs|
    ensures |r| == 0 <==> |cs| == 0
  {
    if |cs| == 0 then {}
    else
      var rest := DaysOf(cs[1..]);
      assert forall k :: 1 <= k < |cs| ==> cs[k] == cs[1..][k - 1];
      {cs[0].info.dayOfWeek} + rest
  }

  /** `daysWithCourses`: how many different week days carry a course. */
  function DaysWithCourses(cs: seq<Course>): nat {
    |DaysOf(cs)|
  }

  /** The colour class of each priority. */
  function PriorityColor(p: Priority): string {
    match p
    case Low => "bg-blue-100 text-blue-800 border-blue-300"
    case Medium => "bg-orange-100 text-orange-800 border-orange-300"
    case High => "bg-red-100 text-red-800 border-red-300"
  }

  /** The badge label of each suggestion type. */
  function TypeBadge(t: SuggestionType): string {
    match t
    case Optimization => "Optimisation"
    case Conflict => "Conflit"
    case Recommendation => "Conseil"
  }

  /** Each priority has its own colour and each type its own label, so the
      rendering tells every priority and every type apart. */
  lemma RenderingTablesInjective()
    ensures forall p, q :: p != q ==> PriorityColor(p) != PriorityColor(q)
    ensures forall s, t :: s != t ==> TypeBadge(s) != TypeBadge(t)
  {
    assert PriorityColor(Low)[3] == 'b';
    assert PriorityColor(Medium) == "bg-orange-100 text-orange-800 border-orange-300";
    assert PriorityColor(Medium)[3] == 'o';
    assert PriorityColor(High)[3] == 'r';
    assert TypeBadge(Optimization)[1] == 'p';
    assert TypeBadge(Conflict)[3] == 'f';
    assert TypeBadge(Recommendation)[3] == 's';
  }
}

=== FILE: engine_facts.dfy ===
/** What the suggestion engine promises about the list it builds: which
    conflicts it reports and in what order, that exactly one credit-load
    entry appears, when the free-Friday and overloaded-day entries appear,
    that all ids differ (they are React list keys), and that the fallback
    list is never used. */
module EngineFacts {
  import opened Wrappers
  import opened Text
  import opened CourseModel
  import opened Conflicts
  import opened Suggestions
  import Dashboard

  /** Indexing into `a + [x] + b + c`. */
  lemma ConcatLayout<T>(a: seq<T>, x: T, b: seq<T>, c: seq<T>)
    ensures var r := a + [x] + b + c;
      && |r| == |a| + 1 + |b| + |c|
      && (forall k :: 0 <= k < |a| ==> r[k] == a[k])
      && r[|a|] == x
      && (forall k :: 0 <= k < |b| ==> r[|a| + 1 + k] == b[k])
      && (forall k :: 0 <= k < |c| ==> r[|a| + 1 + |b| + k] == c[k])
  {
  }

  /** Where each part of `Generate` sits in the list. */
  lemma GenerateLayout(cs: seq<Course>)
    ensures var r, ps := Generate(cs), ConflictPairs(cs);
      var n, f := |ps|, |FridayEntries(cs)|;
      && |r| == n + 1 + f + |BusyEntries(cs)|
      && (forall k :: 0 <= k < n ==> r[k] == ConflictEntry(cs, ps[k]))
      && r[n] == CreditEntry(Dashboard.TotalCredits(cs))
      && (forall k :: 0 <= k < f ==> r[n + 1 + k] == FridayEntries(cs)[k])
      && (forall k :: 0 <= k < |BusyEntries(cs)| ==> r[n + 1 + f + k] == BusyEntries(cs)[k])
  {
    ConcatLayout(ConflictEntries(cs, ConflictPairs(cs)), CreditEntry(Dashboard.TotalCredits(cs)),
      FridayEntries(cs), BusyEntries(cs));
  }

  /** What sits at position `k` of the built list. */
  lemma EntryAt(cs: seq<Course>, k: nat)
    requires k < |Generate(cs)|
    ensures var r, n, f := Generate(cs), |ConflictPairs(cs)|, |FridayEntries(cs)|;
      && (k < n ==> r[k] == ConflictEntry(cs, ConflictPairs(cs)[k]))
      && (k == n ==> r[k] == CreditEntry(Dashboard.TotalCredits(cs)))
      && (n < k < n + 1 + f ==> r[k] == FridayEntry)
      && (n + 1 + f <= k ==>
            var d := BusyDays(cs)[k - n - 1 - f];
            r[k] == BusyEntry(d, CountOnDay(cs, d)))
  {
    GenerateLayout(cs);
  }

  /** Which check produced position `k`. */
  lemma KindAt(cs: seq<Course>, k: nat)
    requires k < |Generate(cs)|
    ensures var r, n, f := Generate(cs), |ConflictPairs(cs)|, |FridayEntries(cs)|;
      && (r[k].kind == Conflict <==> k < n)
      && (r[k].key.ConflictKey? <==> k < n)
      && (IsCreditKey(r[k].key) <==> k == n)
      && (r[k].key.FridayFree? <==> n < k < n + 1 + f)
      && (r[k].key.BusyDay? <==> n + 1 + f <= k)
  {
    EntryAt(cs, k);
    var n, f := |ConflictPairs(cs)|, |FridayEntries(cs)|;
    if k < n {
    } else if k == n {
    } else if k < n + 1 + f {
    } else {
    }
  }

  /** The conflict entries come first, one per pair the scan flagged, in
      the `(i, j)` order of the two nested loops; each is `high` priority
      with id `conflict-i-j`, the two titles in its message and the two
      course ids; no other entry is a conflict. */
  lemma {:induction false} ConflictSuggestionsFirst(cs: seq<Course>)
    ensures var r, ps := Generate(cs), ConflictPairs(cs);
      && (forall k :: 0 <= k < |r| ==> (r[k].kind == Conflict <==> k < |ps|))
      && (forall k :: 0 <= k < |ps| ==>
            var p := ps[k];
            && p.0 < p.1 < |cs| && Conflicting(cs[p.0], cs[p.1])
            && r[k].key == ConflictKey(p.0, p.1)
            && r[k].message == ConflictMessage(cs[p.0].info.title, cs[p.1].info.title)
            && r[k].courses == Some([cs[p.0].id, cs[p.1].id])
            && r[k].priority == High)
      && (forall x, y :: 0 <= x < y < |ps| ==> LexLess(ps[x], ps[y]))
  {
    var r, ps := Generate(cs), ConflictPairs(cs);
    forall k | 0 <= k < |r|
      ensures r[k].kind == Conflict <==> k < |ps|
    {
      KindAt(cs, k);
    }
    forall k | 0 <= k < |ps|
      ensures ps[k] in ps && r[k] == ConflictEntry(cs, ps[k])
    {
      EntryAt(cs, k);
    }
  }

  /** Some entry is a conflict exactly when the scan flagged some pair. */
  lemma {:induction false} ConflictKindPresent(cs: seq<Course>)
    ensures var r := Generate(cs);
      (exists k :: 0 <= k < |r| && r[k].kind == Conflict) <==> |ConflictPairs(cs)| > 0
  {
    var r := Generate(cs);
    if |ConflictPairs(cs)| > 0 {
      GenerateSplit(cs);
      KindAt(cs, 0);
    }
    if exists k :: 0 <= k < |r| && r[k].kind == Conflict {
      var k :| 0 <= k < |r| && r[k].kind == Conflict;
      KindAt(cs, k);
    }
  }

  /** A pair `i < j` is reported (an entry with id `conflict-i-j`) exactly
      when the two courses share a day and their hours overlap. */
  lemma {:induction false} ConflictReportedIff(cs: seq<Course>, i: nat, j: nat)
    requires i < j < |cs|
    ensures var r := Generate(cs);
      Conflicting(cs[i], cs[j]) <==> exists k :: 0 <= k < |r| && r[k].key == ConflictKey(i, j)
  {
    var r, ps := Generate(cs), ConflictPairs(cs);
    if Conflicting(cs[i], cs[j]) {
      assert (i, j) in ps;
      var k :| 0 <= k < |ps| && ps[k] == (i, j);
      EntryAt(cs, k);
      assert r[k].key == ConflictKey(i, j);
    }
    if exists k :: 0 <= k < |r| && r[k].key == ConflictKey(i, j) {
      var k :| 0 <= k < |r| && r[k].key == ConflictKey(i, j);
      KindAt(cs, k);
      EntryAt(cs, k);
      assert ps[k] in ps;
    }
  }

  /** Exactly one entry is a credit-load entry: the one right after the
      conflicts. Its branch follows the credit total (absent credits
      counting 0): below 20 a `medium` recommendation `credits-low`, above
      35 a `high` recommendation `credits-high`, otherwise a `low`
      optimisation `credits-good`. */
  lemma {:induction false} CreditEntryExactlyOnce(cs: seq<Course>)
    ensures var r, n, total := Generate(cs), |ConflictPairs(cs)|, Dashboard.TotalCredits(cs);
      && n < |r|
      && (forall k :: 0 <= k < |r| ==> (IsCreditKey(r[k].key) <==> k == n))
      && (r[n].key == CreditsLow <==> total < 20)
      && (r[n].key == CreditsHigh <==> total > 35)
      && (r[n].key == CreditsGood <==> 20 <= total <= 35)
      && (total < 20 ==> r[n].kind == Recommendation && r[n].priority == Medium)
      && (total > 35 ==> r[n].kind == Recommendation && r[n].priority == High)
      && (20 <= total <= 35 ==> r[n].kind == Optimization && r[n].priority == Low)
  {
    var r, n := Generate(cs), |ConflictPairs(cs)|;
    EntryAt(cs, n);
    forall k | 0 <= k < |r|
      ensures IsCreditKey(r[k].key) <==> k == n
    {
      KindAt(cs, k);
    }
  }

  /** `friday-free` appears exactly when no course is on Friday, and then
      once, right after the credit entry, as a low-priority optimisation. */
  lemma {:induction false} FridayFreeExact(cs: seq<Course>)
    ensures var r := Generate(cs);
      && ((exists k :: 0 <= k < |r| && r[k].key == FridayFree)
          <==> forall c :: 0 <= c < |cs| ==> cs[c].info.dayOfWeek != Friday)
      && (forall k :: 0 <= k < |r| && r[k].key == FridayFree ==> r[k] == FridayEntry)
      && forall k :: 0 <= k < |r| && r[k].key == FridayFree ==> k == |ConflictPairs(cs)| + 1
  {
    var r, n, f := Generate(cs), |ConflictPairs(cs)|, |FridayEntries(cs)|;
    forall k | 0 <= k < |r|
      ensures r[k].key == FridayFree <==> n < k < n + 1 + f
      ensures r[k].key == FridayFree ==> r[k] == FridayEntry
    {
      KindAt(cs, k);
      EntryAt(cs, k);
    }
    if forall c :: 0 <= c < |cs| ==> cs[c].info.dayOfWeek != Friday {
      assert Friday !in Dashboard.DaysOf(cs);
      assert f == 1;
      assert r[n + 1].key == FridayFree;
    }
  }

  /** Indexing into the tail `suf` of `pre + suf`. */
  lemma SuffixAt<T>(pre: seq<T>, suf: seq<T>)
    ensures forall i :: 0 <= i < |suf| ==> (pre + suf)[|pre| + i] == suf[i]
  {
  }

  /** Everything of the built list before the overloaded-day entries. */
  function Head(cs: seq<Course>): seq<Suggestion> {
    ConflictEntries(cs, ConflictPairs(cs)) + [CreditEntry(Dashboard.TotalCredits(cs))] + FridayEntries(cs)
  }

  lemma GenerateSplit(cs: seq<Course>)
    ensures Generate(cs) == Head(cs) + BusyEntries(cs)
    ensures |Head(cs)| == |ConflictPairs(cs)| + 1 + |FridayEntries(cs)|
    ensures |Generate(cs)| == |Head(cs)| + |BusyDays(cs)|
  {
  }

  /** The overloaded-day entries close the list: after the head, one
      entry per busy day, and only those positions carry a `busy-day` key. */
  lemma {:induction false} BusyKeysLast(cs: seq<Course>)
    ensures var r := Generate(cs);
      && |Head(cs)| + |BusyDays(cs)| == |r|
      && forall k :: 0 <= k < |r| ==> (r[k].key.BusyDay? <==> |Head(cs)| <= k)
  {
    var r := Generate(cs);
    GenerateSplit(cs);
    forall k | 0 <= k < |r|
      ensures r[k].key.BusyDay? <==> |Head(cs)| <= k
    {
      KindAt(cs, k);
    }
  }

  /** One overloaded-day entry per busy day, in the order of `BusyDays`,
      each a `medium` recommendation carrying the day's course count. */
  lemma {:induction false} BusyEntriesContent(cs: seq<Course>)
    ensures var r, days := Generate(cs), BusyDays(cs);
      forall i :: 0 <= i < |days| ==>
        |Head(cs)| + i < |r| && r[|Head(cs)| + i] == BusyEntry(days[i], CountOnDay(cs, days[i]))
  {
    GenerateSplit(cs);
    SuffixAt(Head(cs), BusyEntries(cs));
  }

  /** The keys of the overloaded-day entries, in the order of `BusyDays`. */
  lemma {:induction false} BusyKeysInOrder(cs: seq<Course>)
    ensures var r, days := Generate(cs), BusyDays(cs);
      forall i :: 0 <= i < |days| ==> |Head(cs)| + i < |r| && r[|Head(cs)| + i].key == BusyDay(days[i])
  {
    var r, days := Generate(cs), BusyDays(cs);
    BusyEntriesContent(cs);
    forall i | 0 <= i < |days|
      ensures |Head(cs)| + i < |r| && r[|Head(cs)| + i].key == BusyDay(days[i])
    {
      assert r[|Head(cs)| + i] == BusyEntry(days[i], CountOnDay(cs, days[i]));
    }
  }

  /** The busy days are exactly the days with at least 4 courses. */
  lemma BusyDaysMembers(cs: seq<Course>)
    ensures forall d: Weekday :: d in BusyDays(cs) <==> CountOnDay(cs, d) >= 4
  {
    TallyCounts(cs);
  }

  /** In a list whose tail from `start` on carries the keys
      `busy-day-<days[i]>` and whose head carries none, a `busy-day-<d>`
      key occurs exactly when `d` is one of `days`. */
  lemma {:induction false} BusyTailIff(r: seq<Suggestion>, days: seq<Weekday>, start: nat, d: Weekday)
    requires start + |days| == |r|
    requires forall k :: 0 <= k < |r| ==> (r[k].key.BusyDay? <==> start <= k)
    requires forall i :: 0 <= i < |days| ==> r[start + i].key == BusyDay(days[i])
    ensures (exists k :: 0 <= k < |r| && r[k].key == BusyDay(d)) <==> d in days
  {
    if d in days {
      var i :| 0 <= i < |days| && days[i] == d;
      assert r[start + i].key == BusyDay(d);
    }
    if exists k :: 0 <= k < |r| && r[k].key == BusyDay(d) {
      var k :| 0 <= k < |r| && r[k].key == BusyDay(d);
      var i := k - start;
      assert r[start + i].key == BusyDay(days[i]);
      assert days[i] in days;
    }
  }

  /** A `busy-day-<d>` entry appears exactly for the days with at least 4
      courses. */
  lemma {:induction false} BusyDayReportedIff(cs: seq<Course>, d: Weekday)
    ensures var r := Generate(cs);
      (exists k :: 0 <= k < |r| && r[k].key == BusyDay(d)) <==> CountOnDay(cs, d) >= 4
  {
    var r, days, start := Generate(cs), BusyDays(cs), |Head(cs)|;
    assert (exists k :: 0 <= k < |r| && r[k].key == BusyDay(d)) <==> d in days by {
      BusyKeysLast(cs);
      BusyKeysInOrder(cs);
      BusyTailIff(r, days, start, d);
    }
    assert d in days <==> CountOnDay(cs, d) >= 4 by {
      BusyDaysMembers(cs);
    }
  }

  /** No two entries share an id, so they are valid React list keys. */
  lemma {:induction false} SuggestionIdsDistinct(cs: seq<Course>)
    ensures DistinctIds(Generate(cs))
  {
    var r, ps := Generate(cs), ConflictPairs(cs);
    var n, f := |ps|, |FridayEntries(cs)|;
    var days := BusyDays(cs);
    var start := n + 1 + f;
    forall a, b | 0 <= a < b < |r|
      ensures r[a].key != r[b].key
    {
      KindAt(cs, a);
      KindAt(cs, b);
      EntryAt(cs, a);
      EntryAt(cs, b);
      if b < n {
        assert LexLess(ps[a], ps[b]);
      } else if start <= a {
        assert days[a - start] < days[b - start];
      }
    }
    forall a, b | 0 <= a < b < |r|
      ensures r[a].Id() != r[b].Id()
    {
      KindAt(cs, a);
      KindAt(cs, b);
      EntryAt(cs, a);
      EntryAt(cs, b);
      if b < n {
        assert LexLess(ps[a], ps[b]);
      } else if start <= a {
        assert days[a - start] < days[b - start];
      }
      KeyTextInjective(r[a].key, r[b].key);
    }
  }

  /** The built list always holds the credit entry, so the placeholder list
      is never shown and the result does not depend on it. */
  lemma FallbackUnreachable(cs: seq<Course>, fallback: seq<Suggestion>)
    ensures |Generate(cs)| >= 1
    ensures GenerateAISuggestions(cs, fallback) == Generate(cs)
  {
  }
}

=== FILE: grid.dfy ===
/** The weekly grid of CalendarView.tsx: five day columns (Monday to
    Friday), thirteen hour rows (8h to 20h), a first-match lookup of the
    course covering a cell, and a course block drawn only in the row of
    its start hour. */
module Grid {
  import opened Wrappers
  import opened CourseModel
  import Dashboard

  /** The day columns `Lundi` .. `Vendredi`; column `col` shows week day `col + 1`. */
  const DayColumns: nat := 5

  /** The hour rows, `Array.from({ length: 13 }, (_, i) => i + 8)`. */
  function Hours(): (r: seq<nat>)
    ensures |r| == 13
    ensures forall h :: h in r <==> 8 <= h <= 20
    ensures forall k :: 0 < k < |r| ==> r[k] == r[k - 1] + 1
  {
    var r := seq(13, i requires 0 <= i < 13 => i + 8);
    forall h | 8 <= h <= 20
      ensures h in r
    {
      assert r[h - 8] == h;
    }
    r
  }

  /** The predicate passed to `find`: the course is on the column's day and
      the row's hour lies in its `[start hour, end hour)` range. */
  predicate Covers(c: Course, col: int, hour: int) {
    c.info.dayOfWeek == col + 1 && c.info.startTime.hour <= hour < c.info.endTime.hour
  }

  /** `getCourseForTimeSlot(col, hour)`: the first course in list order
      that covers the cell, or nothing. */
  function SlotCourse(cs: seq<Course>, col: int, hour: int): (r: Option<Course>)
    ensures r.None? <==> forall k :: 0 <= k < |cs| ==> !Covers(cs[k], col, hour)
    ensures r.Some? ==> Covers(r.value, col, hour)
    ensures r.Some? ==> exists k :: 0 <= k < |cs| && cs[k] == r.value && FirstCover(cs, col, hour, k)
  {
    if |cs| == 0 then None
    else if Covers(cs[0], col, hour) then
      assert FirstCover(cs, col, hour, 0);
      Some(cs[0])
    else
      var rest := SlotCourse(cs[1..], col, hour);
      assert forall k :: 1 <= k < |cs| ==> cs[k] == cs[1..][k - 1];
      if rest.Some? then
        var k :| 0 <= k < |cs[1..]| && cs[1..][k] == rest.value && FirstCover(cs[1..], col, hour, k);
        assert FirstCover(cs, col, hour, k + 1);
        rest
      else rest
  }

  /** Position `k` covers the cell and no earlier position does. */
  predicate FirstCover(cs: seq<Course>, col: int, hour: int, k: nat)
    requires k < |cs|
  {
    Covers(cs[k], col, hour) && forall m :: 0 <= m < k ==> !Covers(cs[m], col, hour)
  }

  /** The columns show Monday to Friday only: a Sunday or Saturday course is
      never found, whatever the hour. */
  lemma WeekendNeverShown(cs: seq<Course>, col: int, hour: int)
    requires 0 <= col < DayColumns
    ensures var r := SlotCourse(cs, col, hour);
      r.Some? ==> 1 <= r.value.info.dayOfWeek <= 5
    ensures forall k :: 0 <= k < |cs| && cs[k].info.dayOfWeek in {0, 6} ==> !Covers(cs[k], col, hour)
  {
  }

  /** `getCourseHeight(course) * 60`: the hour difference plus the minute
      difference, in minutes. It agrees with the dashboard's duration. */
  function HeightMinutes(c: CourseInfo): (r: int)
    ensures r == Dashboard.DurationMinutes(c)
  {
    (c.endTime.hour - c.startTime.hour) * 60 + (c.endTime.minute - c.startTime.minute)
  }

  /** What a cell of the grid shows. */
  datatype Cell = Block(course: Course, heightMinutes: int) | Empty

  /** The rendering rule for cell `(col, hour)`: a block when the found
      course starts in this row, an empty cell otherwise (also when nothing
      is found, where the start hour reads as `[0]`). */
  function CellAt(cs: seq<Course>, col: int, hour: int): (r: Cell)
    ensures r.Block? <==> exists k :: 0 <= k < |cs| && FirstCover(cs, col, hour, k)
                                      && cs[k].info.startTime.hour == hour
    ensures r.Block? ==> r.course in cs && Covers(r.course, col, hour)
                         && r.course.info.startTime.hour == hour
                         && r.heightMinutes == Dashboard.DurationMinutes(r.course.info)
  {
    var found := SlotCourse(cs, col, hour);
    var startHour := if found.Some? then found.value.info.startTime.hour else 0;
    FirstCoverUnique(cs, col, hour);
    if found.Some? && startHour == hour then Block(found.value, HeightMinutes(found.value.info))
    else Empty
  }

  /** At most one position is the first to cover a cell. */
  lemma FirstCoverUnique(cs: seq<Course>, col: int, hour: int)
    ensures forall j, k ::
      (0 <= j < |cs| && 0 <= k < |cs| && FirstCover(cs, col, hour, j) && FirstCover(cs, col, hour, k)) ==> j == k
  {
  }

  /** In a cell whose first covering course is `cs[k]`, that course's
      block is drawn when the row is its start hour, and the cell is empty
      in every later row it covers. */
  lemma {:induction false} CellOfFirstCover(cs: seq<Course>, k: nat, col: int, hour: int)
    requires k < |cs|
    requires FirstCover(cs, col, hour, k)
    ensures CellAt(cs, col, hour)
      == if cs[k].info.startTime.hour == hour then Block(cs[k], Dashboard.DurationMinutes(cs[k].info)) else Empty
  {
    FirstCoverUnique(cs, col, hour);
    var r := SlotCourse(cs, col, hour);
    var j :| 0 <= j < |cs| && cs[j] == r.value && FirstCover(cs, col, hour, j);
    assert j == k;
  }
}

=== FILE: host.dfy ===
/** The host's list updates in App.tsx: adding one course from the form,
    and the review round trip that appends a batch of extracted courses.
    `Date.now()` is the parameter `now`, or `nows` when it is read once per
    element. */
module Host {
  import opened Text
  import opened CourseModel
  import Dashboard

  /** `Date.now().toString()`. */
  function SingleId(now: nat): string {
    NatToString(now)
  }

  /** `${Date.now()}-${index}`. */
  function BatchId(now: nat, index: nat): string {
    NatToString(now) + "-" + NatToString(index)
  }

  /** `handleAddCourse`: the old list, then the new course with a fresh id. */
  function AddCourse(courses: seq<Course>, data: CourseInfo, now: nat): (r: seq<Course>)
    ensures |r| == |courses| + 1
    ensures r[..|courses|] == courses
    ensures r[|courses|].info == data && IsDigits(r[|courses|].id)
  {
    courses + [Course(SingleId(now), data)]
  }

  /** Adding a course adds its credit weight (absent counting 0) to the total. */
  lemma AddCourseCredits(courses: seq<Course>, data: CourseInfo, now: nat)
    ensures Dashboard.TotalCredits(AddCourse(courses, data, now))
            == Dashboard.TotalCredits(courses) + data.CreditsOrZero()
  {
    Dashboard.TotalCreditsAppend(courses, [Course(SingleId(now), data)]);
  }

  /** The courses `handleConfirmReview` builds with `map`. The callback reads
      the clock once per element: `nows[k]` is the reading for element `k`. */
  function Batch(reviewed: seq<CourseInfo>, nows: seq<nat>): (r: seq<Course>)
    requires |nows| == |reviewed|
    ensures |r| == |reviewed|
    ensures forall k :: 0 <= k < |r| ==> r[k].info == reviewed[k]
  {
    seq(|reviewed|, k requires 0 <= k < |reviewed| => Course(BatchId(nows[k], k), reviewed[k]))
  }

  /** `setCourses([...courses, ...newCourses])`: the old list is a prefix and
      the batch follows it element by element. */
  function AppendBatch(courses: seq<Course>, reviewed: seq<CourseInfo>, nows: seq<nat>): (r: seq<Course>)
    requires |nows| == |reviewed|
    ensures |r| == |courses| + |reviewed|
    ensures r[..|courses|] == courses
    ensures forall k :: 0 <= k < |reviewed| ==> r[|courses| + k].info == reviewed[k]
    ensures forall i, j :: |courses| <= i < j < |r| ==> r[i].id != r[j].id
  {
    var b := Batch(reviewed, nows);
    BatchDistinct(reviewed, nows);
    assert forall i :: |courses| <= i < |courses| + |b| ==> (courses + b)[i] == b[i - |courses|];
    courses + b
  }

  /** Two batch ids with different indices differ, whatever the two clock
      readings were: the digits before `-` end where the separator stands. */
  lemma BatchIdsDistinct(now1: nat, now2: nat, i: nat, j: nat)
    requires i != j
    ensures BatchId(now1, i) != BatchId(now2, j)
  {
    var a := NatToString(now1);
    var c := NatToString(now2);
    assert '-' !in a by { assert IsDigits(a); }
    assert '-' !in c by { assert IsDigits(c); }
    if BatchId(now1, i) == BatchId(now2, j) {
      SeparatorSplit(a, NatToString(i), c, NatToString(j), '-');
      NatToStringInjective(i, j);
    }
  }

  /** A batch id contains `-` and a single id does not, so the two never
      collide, whatever the clock reads. */
  lemma BatchIdNotSingleId(now: nat, index: nat, other: nat)
    ensures BatchId(now, index) != SingleId(other)
  {
    var s := BatchId(now, index);
    assert s[|NatToString(now)|] == '-';
    assert IsDigits(SingleId(other));
  }

  /** The appended batch has pairwise distinct ids. */
  lemma {:induction false} BatchDistinct(reviewed: seq<CourseInfo>, nows: seq<nat>)
    requires |nows| == |reviewed|
    ensures var b := Batch(reviewed, nows);
      forall i, j :: 0 <= i < j < |b| ==> b[i].id != b[j].id
  {
    var b := Batch(reviewed, nows);
    forall i, j | 0 <= i < j < |b|
      ensures b[i].id != b[j].id
    {
      BatchIdsDistinct(nows[i], nows[j], i, j);
    }
  }

  /** The host's review state: the timetable, whether the review dialog is
      open, and the extracted courses waiting for review. */
  datatype HostState = HostState(courses: seq<Course>, reviewOpen: bool, toReview: seq<CourseInfo>)

  /** `handleRequestReview`: hand the extracted courses to the dialog and open it. */
  function RequestReview(st: HostState, extracted: seq<CourseInfo>): (r: HostState)
    ensures r.reviewOpen && r.toReview == extracted && r.courses == st.courses
  {
    HostState(st.courses, true, extracted)
  }

  /** `handleConfirmReview`: append the reviewed batch, close, clear. */
  function ConfirmReview(st: HostState, reviewed: seq<CourseInfo>, nows: seq<nat>): (r: HostState)
    requires |nows| == |reviewed|
    ensures !r.reviewOpen && r.toReview == []
    ensures |r.courses| == |st.courses| + |reviewed|
    ensures r.courses[..|st.courses|] == st.courses
    ensures forall k :: 0 <= k < |reviewed| ==> r.courses[|st.courses| + k].info == reviewed[k]
  {
    HostState(AppendBatch(st.courses, reviewed, nows), false, [])
  }

  /** `handleCancelReview`: close and clear, the timetable untouched. */
  function CancelReview(st: HostState): (r: HostState)
    ensures !r.reviewOpen && r.toReview == [] && r.courses == st.courses
  {
    HostState(st.courses, false, [])
  }

  /** Confirming a batch adds the batch's credits to the total. */
  lemma ConfirmReviewCredits(st: HostState, reviewed: seq<CourseInfo>, nows: seq<nat>)
    requires |nows| == |reviewed|
    ensures Dashboard.TotalCredits(ConfirmReview(st, reviewed, nows).courses)
            == Dashboard.TotalCredits(st.courses) + Dashboard.TotalCredits(Batch(reviewed, nows))
  {
    Dashboard.TotalCreditsAppend(st.courses, Batch(reviewed, nows));
  }
}

=== FILE: review.dfy ===
/** The review dialog of ReviewCoursesDialog.tsx: a working copy of the
    extracted courses that the user edits field by field, prunes, and
    finally hands back to the host. */
module Review {
  import opened Wrappers
  import opened CourseModel
  import Host

  /** The fields the dialog's inputs edit, i.e. the keys of `Omit<Course, 'id'>`. */
  datatype Field = Title | Professor | Location | Day | Start | End | Credits | Color | Description

  /** One `handleEdit(index, field, value)` call, the value typed by its field. */
  datatype Edit =
    | SetTitle(title: string)
    | SetProfessor(professor: string)
    | SetLocation(location: string)
    | SetDay(day: Weekday)
    | SetStart(start: Time)
    | SetEnd(end: Time)
    | SetCredits(credits: int)
    | SetColor(color: string)
    | SetDescription(description: string)
  {
    function Target(): Field {
      match this
      case SetTitle(_) => Title
      case SetProfessor(_) => Professor
      case SetLocation(_) => Location
      case SetDay(_) => Day
      case SetStart(_) => Start
      case SetEnd(_) => End
      case SetCredits(_) => Credits
      case SetColor(_) => Color
      case SetDescription(_) => Description
    }
  }

  /** `a` and `b` agree on field `f`. */
  predicate SameField(a: CourseInfo, b: CourseInfo, f: Field) {
    match f
    case Title => a.title == b.title
    case Professor => a.professor == b.professor
    case Location => a.location == b.location
    case Day => a.dayOfWeek == b.dayOfWeek
    case Start => a.startTime == b.startTime
    case End => a.endTime == b.endTime
    case Credits => a.credits == b.credits
    case Color => a.color == b.color
    case Description => a.description == b.description
  }

  /** The edit's field holds the edit's value. */
  predicate Holds(c: CourseInfo, e: Edit) {
    match e
    case SetTitle(v) => c.title == v
    case SetProfessor(v) => c.professor == v
    case SetLocation(v) => c.location == v
    case SetDay(v) => c.dayOfWeek == v
    case SetStart(v) => c.startTime == v
    case SetEnd(v) => c.endTime == v
    case SetCredits(v) => c.credits == Some(v)
    case SetColor(v) => c.color == v
    case SetDescription(v) => c.description == Some(v)
  }

  /** `{ ...course, [field]: value }`. */
  function Apply(c: CourseInfo, e: Edit): (r: CourseInfo)
    ensures Holds(r, e)
    ensures forall f :: f != e.Target() ==> SameField(r, c, f)
  {
    match e
    case SetTitle(v) => c.(title := v)
    case SetProfessor(v) => c.(professor := v)
    case SetLocation(v) => c.(location := v)
    case SetDay(v) => c.(dayOfWeek := v)
    case SetStart(v) => c.(startTime := v)
    case SetEnd(v) => c.(endTime := v)
    case SetCredits(v) => c.(credits := Some(v))
    case SetColor(v) => c.(color := v)
    case SetDescription(v) => c.(description := Some(v))
  }

  /** The nine fields determine a course: agreeing on all of them is equality. */
  lemma AllFieldsEqual(a: CourseInfo, b: CourseInfo)
    requires forall f :: SameField(a, b, f)
    ensures a == b
  {
    assert SameField(a, b, Title) && SameField(a, b, Professor) && SameField(a, b, Location);
    assert SameField(a, b, Day) && SameField(a, b, Start) && SameField(a, b, End);
    assert SameField(a, b, Credits) && SameField(a, b, Color) && SameField(a, b, Description);
  }

  /** Editing a field to the value it already holds changes nothing. */
  lemma ApplyIdempotent(c: CourseInfo, e: Edit)
    ensures Apply(Apply(c, e), e) == Apply(c, e)
    ensures Holds(c, e) ==> Apply(c, e) == c
  {
    var once := Apply(c, e);
    forall f
      ensures SameField(Apply(once, e), once, f)
    {
      if f == e.Target() {
        match e
        case SetTitle(_) =>
        case SetProfessor(_) =>
        case SetLocation(_) =>
        case SetDay(_) =>
        case SetStart(_) =>
        case SetEnd(_) =>
        case SetCredits(_) =>
        case SetColor(_) =>
        case SetDescription(_) =>
      }
    }
    AllFieldsEqual(Apply(once, e), once);
    if Holds(c, e) {
      forall f
        ensures SameField(once, c, f)
      {
      }
      AllFieldsEqual(once, c);
    }
  }

  /** `handleEdit(index, field, value)` on the working copy; the dialog
      only calls it with the index of a rendered row. */
  function EditAt(list: seq<CourseInfo>, index: nat, e: Edit): (r: seq<CourseInfo>)
    requires index < |list|
    ensures |r| == |list|
    ensures forall k :: 0 <= k < |list| && k != index ==> r[k] == list[k]
    ensures Holds(r[index], e)
    ensures forall f :: f != e.Target() ==> SameField(r[index], list[index], f)
  {
    list[index := Apply(list[index], e)]
  }

  /** The list without position `index`; an index outside the list drops nothing. */
  function Without(list: seq<CourseInfo>, index: int): seq<CourseInfo> {
    if 0 <= index < |list| then list[..index] + list[index + 1..] else list
  }

  /** `editedCourses.filter((_, i) => i !== index)`, run as a loop: every
      element whose position differs from `index` is kept, in order. */
  method RemoveAt(list: seq<CourseInfo>, index: int) returns (r: seq<CourseInfo>)
    ensures r == Without(list, index)
    ensures 0 <= index < |list| ==> r == list[..index] + list[index + 1..]
    ensures !(0 <= index < |list|) ==> r == list
  {
    r := [];
    var k := 0;
    while k < |list|
      invariant 0 <= k <= |list|
      invariant 0 <= index < k ==> r == list[..index] + list[index + 1..k]
      invariant !(0 <= index < k) ==> r == list[..k]
    {
      if k != index {
        if 0 <= index < k {
          assert list[index + 1..k + 1] == list[index + 1..k] + [list[k]];
        } else {
          assert list[..k + 1] == list[..k] + [list[k]];
        }
        r := r + [list[k]];
      }
      k := k + 1;
    }
    assert list[..|list|] == list;
  }

  /** The dialog's own state: the working copy and the row being edited. */
  datatype Dialog = Dialog(edited: seq<CourseInfo>, editing: Option<nat>)

  /** `useState(courses)` and `useState(null)`: the state a dialog instance
      starts from. React reads these initial values only when the instance
      is created; later `courses` props do not reach `editedCourses`. */
  function Open(courses: seq<CourseInfo>): (d: Dialog)
    ensures d.edited == courses && d.editing == None
  {
    Dialog(courses, None)
  }

  /** `handleRemove`: drop the row and leave edit mode. */
  method HandleRemove(d: Dialog, index: int) returns (r: Dialog)
    ensures r.editing == None
    ensures 0 <= index < |d.edited| ==>
      |r.edited| == |d.edited| - 1 && r.edited == d.edited[..index] + d.edited[index + 1..]
    ensures !(0 <= index < |d.edited|) ==> r.edited == d.edited
    ensures r == Dialog(Without(d.edited, index), None)
  {
    var updated := RemoveAt(d.edited, index);
    r := Dialog(updated, None);
  }

  /** The pencil button: `setEditingIndex(editingIndex === index ? null : index)`. */
  function ToggleEditing(editing: Option<nat>, index: nat): (r: Option<nat>)
    ensures r == None <==> editing == Some(index)
    ensures r != None ==> r == Some(index)
  {
    if editing == Some(index) then None else Some(index)
  }

  /** Pressing the button twice returns to the starting state when it
      starts on this row or on no row. */
  lemma ToggleTwice(editing: Option<nat>, index: nat)
    requires editing == None || editing == Some(index)
    ensures ToggleEditing(ToggleEditing(editing, index), index) == editing
  {
  }

  /** `disabled={editedCourses.length === 0}`. */
  predicate ConfirmDisabled(d: Dialog) {
    |d.edited| == 0
  }

  /** `handleConfirm`: the working copy goes to the host as it is. When the
      button is enabled the host's list grows by exactly the rows shown. */
  function Confirm(d: Dialog, st: Host.HostState, nows: seq<nat>): (r: Host.HostState)
    requires |nows| == |d.edited|
    ensures |r.courses| == |st.courses| + |d.edited|
    ensures !ConfirmDisabled(d) ==> |r.courses| > |st.courses|
    ensures r.courses[..|st.courses|] == st.courses
    ensures forall k :: 0 <= k < |d.edited| ==> r.courses[|st.courses| + k].info == d.edited[k]
    ensures !r.reviewOpen
  {
    Host.ConfirmReview(st, d.edited, nows)
  }

  // ---------------------------------------------------------------------
  // The dialog inside App

  /** What can happen while App is on screen: the upload zone hands over
      extracted courses (`handleRequestReview`), the dialog is dismissed
      (`handleCancelReview`), the confirm button is pressed with one clock
      reading per row, or a row is edited, removed or toggled. */
  datatype Event =
    | Upload(extracted: seq<CourseInfo>)
    | Dismiss
    | Press(nows: seq<nat>)
    | EditRow(row: nat, e: Edit)
    | RemoveRow(row: nat)
    | Pencil(row: nat)

  /** App's state together with the one dialog instance App renders. */
  datatype Screen = Screen(host: Host.HostState, dialog: Dialog)

  /** App's first render: `coursesToReview` starts as `[]`, the dialog is
      closed, and the single dialog instance is created from that prop. */
  function Mount(courses: seq<Course>): (s: Screen)
    ensures s.host.courses == courses && !s.host.reviewOpen && s.host.toReview == []
    ensures s.dialog == Open(s.host.toReview)
  {
    var host := Host.HostState(courses, false, []);
    Screen(host, Open(host.toReview))
  }

  /** `handleRequestReview` as App is written: the dialog is rendered without
      a `key`, so the same instance only receives the new `courses` prop and
      keeps its state. */
  function UploadAsWritten(s: Screen, extracted: seq<CourseInfo>): (r: Screen)
    ensures r.host == Host.RequestReview(s.host, extracted)
    ensures r.dialog == s.dialog
  {
    Screen(Host.RequestReview(s.host, extracted), s.dialog)
  }

  /** `handleRequestReview` with the dialog reset on each opening (a `key`
      that changes per upload, or an effect that copies `courses` into the
      state): the working copy is the extracted list. */
  function UploadCorrected(s: Screen, extracted: seq<CourseInfo>): (r: Screen)
    ensures r.host == Host.RequestReview(s.host, extracted)
    ensures r.dialog.edited == r.host.toReview && r.dialog.editing == None
  {
    Screen(Host.RequestReview(s.host, extracted), Open(extracted))
  }

  /** One event. Rows and their buttons exist only while the dialog is open
      and only for positions of the working copy; a row's inputs exist only
      while that row is in edit mode; the confirm button is disabled on an
      empty copy. `reset` chooses the corrected upload. Only a press changes
      the timetable, and then only by appending to it; a closed dialog
      ignores everything but uploads and dismissals. */
  function Step(s: Screen, ev: Event, reset: bool): (r: Screen)
    ensures s.host.courses <= r.host.courses
    ensures !ev.Press? ==> r.host.courses == s.host.courses
    ensures ev.Upload? ==> r.host.reviewOpen && r.host.toReview == ev.extracted
    ensures ev.Dismiss? ==> !r.host.reviewOpen && r.host.toReview == [] && r.dialog == s.dialog
    ensures !s.host.reviewOpen && !ev.Upload? && !ev.Dismiss? ==> r == s
    ensures ev.EditRow? ==> |r.dialog.edited| == |s.dialog.edited| && r.dialog.editing == s.dialog.editing
    ensures ev.EditRow? && s.dialog.editing != Some(ev.row) ==> r == s
  {
    var d := s.dialog;
    match ev
    case Upload(extracted) =>
      if reset then UploadCorrected(s, extracted) else UploadAsWritten(s, extracted)
    case Dismiss => Screen(Host.CancelReview(s.host), d)
    case Press(nows) =>
      if s.host.reviewOpen && !ConfirmDisabled(d) && |nows| == |d.edited|
      then Screen(Confirm(d, s.host, nows), d)
      else s
    case EditRow(row, e) =>
      if s.host.reviewOpen && row < |d.edited| && d.editing == Some(row)
      then Screen(s.host, d.(edited := EditAt(d.edited, row, e)))
      else s
    case RemoveRow(row) =>
      if s.host.reviewOpen && row < |d.edited|
      then Screen(s.host, Dialog(Without(d.edited, row), None))
      else s
    case Pencil(row) =>
      if s.host.reviewOpen && row < |d.edited|
      then Screen(s.host, d.(editing := ToggleEditing(d.editing, row)))
      else s
  }

  /** The events in order. Whatever happens, the timetable only grows at its
      end, and a run without a press leaves it unchanged. */
  function Run(s: Screen, evs: seq<Event>, reset: bool): (r: Screen)
    ensures s.host.courses <= r.host.courses
    ensures (forall k :: 0 <= k < |evs| ==> !evs[k].Press?) ==> r.host.courses == s.host.courses
    decreases |evs|
  {
    if evs == [] then s
    else
      var next := Step(s, evs[0], reset);
      assert forall k :: 0 <= k < |evs[1..]| ==> evs[1..][k] == evs[k + 1];
      Run(next, evs[1..], reset)
  }

  /** As written, an empty dialog stays empty whatever happens: it has no row
      to edit, remove or toggle, its confirm button is disabled, and uploads
      do not reach its state. The timetable is never changed by the dialog. */
  lemma {:induction false} EmptyDialogStaysEmpty(s: Screen, evs: seq<Event>)
    requires s.dialog == Open([])
    ensures Run(s, evs, false).dialog == Open([])
    ensures ConfirmDisabled(Run(s, evs, false).dialog)
    ensures Run(s, evs, false).host.courses == s.host.courses
    decreases |evs|
  {
    if evs != [] {
      var next := Step(s, evs[0], false);
      assert next.dialog == Open([]) && next.host.courses == s.host.courses;
      EmptyDialogStaysEmpty(next, evs[1..]);
    }
  }

  /** As written, the reviewed courses never reach the timetable: from the
      first render on, the dialog's working copy is `[]` after any events. */
  lemma ReviewNeverAddsAsWritten(courses: seq<Course>, evs: seq<Event>)
    ensures Run(Mount(courses), evs, false).dialog.edited == []
    ensures Run(Mount(courses), evs, false).host.courses == courses
  {
    EmptyDialogStaysEmpty(Mount(courses), evs);
  }

  /** The concrete discrepancy: after an upload of a non-empty list the host
      holds it and opens the dialog, but the dialog shows no row and its
      confirm button is disabled, so pressing it adds nothing. */
  lemma UploadNotShownAsWritten(courses: seq<Course>, extracted: seq<CourseInfo>, nows: seq<nat>)
    requires extracted != [] && |nows| == |extracted|
    ensures var s := Run(Mount(courses), [Upload(extracted)], false);
      s.host.reviewOpen && s.host.toReview == extracted
      && s.dialog.edited != extracted && ConfirmDisabled(s.dialog)
    ensures Run(Mount(courses), [Upload(extracted), Press(nows)], false).host.courses == courses
  {
    ReviewNeverAddsAsWritten(courses, [Upload(extracted)]);
    ReviewNeverAddsAsWritten(courses, [Upload(extracted), Press(nows)]);
  }

  /** With the reset on opening, uploading and confirming appends the
      extracted courses, in order and with pairwise distinct ids, after the
      unchanged timetable, and closes the dialog. */
  lemma UploadConfirmCorrected(s: Screen, extracted: seq<CourseInfo>, nows: seq<nat>)
    requires extracted != [] && |nows| == |extracted|
    ensures var r := Run(s, [Upload(extracted), Press(nows)], true);
      |r.host.courses| == |s.host.courses| + |extracted|
      && r.host.courses[..|s.host.courses|] == s.host.courses
      && (forall k :: 0 <= k < |extracted| ==> r.host.courses[|s.host.courses| + k].info == extracted[k])
      && (forall i, j :: |s.host.courses| <= i < j < |r.host.courses| ==> r.host.courses[i].id != r.host.courses[j].id)
      && !r.host.reviewOpen
  {
    var shown := Step(s, Upload(extracted), true);
    assert shown.dialog == Open(extracted) && shown.host.reviewOpen;
    assert shown.host.courses == s.host.courses;
    var pressed := Step(shown, Press(nows), true);
    assert pressed.host == Confirm(shown.dialog, shown.host, nows);
    var evs := [Upload(extracted), Press(nows)];
    assert evs[1..] == [Press(nows)];
    assert Run(s, evs, true) == Run(shown, [Press(nows)], true);
    assert Run(shown, [Press(nows)], true) == Run(pressed, [], true);
  }
}

=== FILE: suggestions.dfy ===
/** The suggestion engine of App.tsx (`generateAISuggestions`): four
    independent checks appended in order — pairwise conflicts, credit load,
    free Friday, overloaded days — and a fallback list that is only used
    when nothing was produced. */
module Suggestions {
  import opened Wrappers
  import opened Text
  import opened CourseModel
  import opened Conflicts
  import Dashboard

  // ---------------------------------------------------------------------
  // Conflict check

  /** `p` comes before `q` in the scan order of the two nested loops. */
  predicate LexLess(p: (nat, nat), q: (nat, nat)) {
    p.0 < q.0 || (p.0 == q.0 && p.1 < q.1)
  }

  /** The pairs `(i, k)`, `i < k < j`, that the inner loop has flagged once
      it has reached `j`. */
  function RowPairs(cs: seq<Course>, i: nat, j: nat): (r: seq<(nat, nat)>)
    requires i < j <= |cs|
    ensures forall p :: p in r ==> p.0 == i && p.1 < j && ConflictAt(cs, p.0, p.1)
    ensures forall k :: k < j && ConflictAt(cs, i, k) ==> (i, k) in r
    ensures forall x, y :: 0 <= x < y < |r| ==> r[x].1 < r[y].1
    decreases j
  {
    if j == i + 1 then []
    else RowPairs(cs, i, j - 1) + (if Conflicting(cs[i], cs[j - 1]) then [(i, j - 1)] else [])
  }

  /** The pairs the outer loop has flagged once it has reached `i`. */
  function PairsBefore(cs: seq<Course>, i: nat): (r: seq<(nat, nat)>)
    requires i <= |cs|
    ensures forall p :: p in r ==> p.0 < i && ConflictAt(cs, p.0, p.1)
    ensures forall a, b :: a < i && ConflictAt(cs, a, b) ==> (a, b) in r
    ensures forall x, y :: 0 <= x < y < |r| ==> LexLess(r[x], r[y])
  {
    if i == 0 then []
    else
      var left := PairsBefore(cs, i - 1);
      PairsAppendRow(cs, i, left);
      left + RowPairs(cs, i - 1, |cs|)
  }

  /** The outer loop's step: the pairs before row `i - 1`, then row `i - 1`. */
  lemma PairsAppendRow(cs: seq<Course>, i: nat, left: seq<(nat, nat)>)
    requires 0 < i <= |cs|
    requires forall p :: p in left ==> p.0 < i - 1 && ConflictAt(cs, p.0, p.1)
    requires forall a, b :: a < i - 1 && ConflictAt(cs, a, b) ==> (a, b) in left
    requires forall x, y :: 0 <= x < y < |left| ==> LexLess(left[x], left[y])
    ensures var r := left + RowPairs(cs, i - 1, |cs|);
      && (forall p :: p in r ==> p.0 < i && ConflictAt(cs, p.0, p.1))
      && (forall a, b :: a < i && ConflictAt(cs, a, b) ==> (a, b) in r)
      && (forall x, y :: 0 <= x < y < |r| ==> LexLess(r[x], r[y]))
  {
    var row := RowPairs(cs, i - 1, |cs|);
    var r := left + row;
    forall x, y | 0 <= x < y < |r|
      ensures LexLess(r[x], r[y])
    {
      if y < |left| {
        assert r[x] == left[x] && r[y] == left[y];
      } else if x >= |left| {
        assert r[x] == row[x - |left|] && r[y] == row[y - |left|];
      } else {
        assert r[x] == left[x] && left[x] in left;
        assert r[y] == row[y - |left|] && row[y - |left|] in row;
      }
    }
  }

  /** Every conflicting pair `i < j`, in the order the scan visits them. */
  function ConflictPairs(cs: seq<Course>): seq<(nat, nat)> {
    PairsBefore(cs, |cs|)
  }

  /** The scan flags some pair exactly when some pair conflicts. */
  lemma {:induction false} ConflictPairsNonEmpty(cs: seq<Course>)
    ensures |ConflictPairs(cs)| > 0 <==> SomeConflict(cs)
  {
    var ps := ConflictPairs(cs);
    if SomeConflict(cs) {
      var a, b :| 0 <= a < b < |cs| && ConflictAt(cs, a, b);
      assert (a, b) in ps;
    }
    if |ps| > 0 {
      assert ps[0] in ps;
    }
  }

  /** The suggestion pushed for the conflicting pair `p`. */
  function ConflictEntry(cs: seq<Course>, p: (nat, nat)): Suggestion
    requires p.0 < |cs| && p.1 < |cs|
  {
    Suggestion(
      ConflictKey(p.0, p.1),
      Conflict,
      ConflictMessage(cs[p.0].info.title, cs[p.1].info.title),
      Some([cs[p.0].id, cs[p.1].id]),
      High)
  }

  /** The suggestions for a list of pairs, one per pair and in the same order. */
  function ConflictEntries(cs: seq<Course>, ps: seq<(nat, nat)>): (r: seq<Suggestion>)
    requires forall p :: p in ps ==> p.0 < |cs| && p.1 < |cs|
    ensures |r| == |ps|
    ensures forall k :: 0 <= k < |ps| ==> r[k] == ConflictEntry(cs, ps[k])
  {
    seq(|ps|, k requires 0 <= k < |ps| => ConflictEntry(cs, ps[k]))
  }

  lemma ConflictEntriesAppend(cs: seq<Course>, ps: seq<(nat, nat)>, qs: seq<(nat, nat)>)
    requires forall p :: p in ps ==> p.0 < |cs| && p.1 < |cs|
    requires forall q :: q in qs ==> q.0 < |cs| && q.1 < |cs|
    ensures ConflictEntries(cs, ps + qs) == ConflictEntries(cs, ps) + ConflictEntries(cs, qs)
  {
    assert forall k :: 0 <= k < |ps| ==> (ps + qs)[k] == ps[k];
    assert forall k :: |ps| <= k < |ps| + |qs| ==> (ps + qs)[k] == qs[k - |ps|];
  }

  /** One step of the inner loop: course `j` adds its entry when it
      conflicts with course `i`. */
  lemma {:induction false} RowEntriesStep(cs: seq<Course>, i: nat, j: nat)
    requires i < j < |cs|
    ensures ConflictEntries(cs, RowPairs(cs, i, j + 1))
         == ConflictEntries(cs, RowPairs(cs, i, j))
            + (if Conflicting(cs[i], cs[j]) then [ConflictEntry(cs, (i, j))] else [])
  {
    var before := RowPairs(cs, i, j);
    if Conflicting(cs[i], cs[j]) {
      assert RowPairs(cs, i, j + 1) == before + [(i, j)];
      ConflictEntriesAppend(cs, before, [(i, j)]);
    } else {
      assert RowPairs(cs, i, j + 1) == before + [];
      assert before + [] == before;
    }
  }

  /** The inner loop of the scan for course `i`: one entry per later course
      that conflicts with it, in list order. */
  method ScanRow(cs: seq<Course>, i: nat) returns (row: seq<Suggestion>)
    requires i < |cs|
    ensures row == ConflictEntries(cs, RowPairs(cs, i, |cs|))
  {
    row := [];
    var j := i + 1;
    while j < |cs|
      invariant i + 1 <= j <= |cs|
      invariant row == ConflictEntries(cs, RowPairs(cs, i, j))
    {
      RowEntriesStep(cs, i, j);
      if Conflicting(cs[i], cs[j]) {
        row := row + [ConflictEntry(cs, (i, j))];
      }
      j := j + 1;
    }
  }

  /** The conflict scan as the source writes it: two nested index loops that
      push one entry per flagged pair. */
  method ScanConflicts(cs: seq<Course>) returns (out: seq<Suggestion>)
    ensures out == ConflictEntries(cs, ConflictPairs(cs))
  {
    out := [];
    var i := 0;
    while i < |cs|
      invariant 0 <= i <= |cs|
      invariant out == ConflictEntries(cs, PairsBefore(cs, i))
    {
      var row := ScanRow(cs, i);
      ConflictEntriesAppend(cs, PairsBefore(cs, i), RowPairs(cs, i, |cs|));
      out := out + row;
      i := i + 1;
    }
  }

  // ---------------------------------------------------------------------
  // Credit-load check

  /** The one credit-load entry for a credit total. */
  function CreditEntry(total: int): Suggestion {
    if total < 20 then
      Suggestion(CreditsLow, Recommendation, LowLoadMessage(total), None, Medium)
    else if total > 35 then
      Suggestion(CreditsHigh, Recommendation, HighLoadMessage(total), None, High)
    else
      Suggestion(CreditsGood, Optimization, BalancedLoadMessage(total), None, Low)
  }

  predicate IsCreditKey(k: SuggestionKey) {
    k.CreditsLow? || k.CreditsHigh? || k.CreditsGood?
  }

  // ---------------------------------------------------------------------
  // Free-Friday check

  const FridayEntry := Suggestion(FridayFree, Optimization, FreeFridayMessage, None, Low)

  /** The free-Friday entry when no course is on day 5, nothing otherwise. */
  function FridayEntries(cs: seq<Course>): seq<Suggestion> {
    if Friday in Dashboard.DaysOf(cs) then [] else [FridayEntry]
  }

  // ---------------------------------------------------------------------
  // Overloaded-day check

  /** Courses on day `d`. */
  function CountOnDay(cs: seq<Course>, d: Weekday): nat {
    if |cs| == 0 then 0
    else (if cs[0].info.dayOfWeek == d then 1 else 0) + CountOnDay(cs[1..], d)
  }

  lemma {:induction false} CountOnDaySnoc(cs: seq<Course>, c: Course, d: Weekday)
    ensures CountOnDay(cs + [c], d) == CountOnDay(cs, d) + (if c.info.dayOfWeek == d then 1 else 0)
  {
    if |cs| == 0 {
      assert (cs + [c])[1..] == [];
    } else {
      assert (cs + [c])[1..] == cs[1..] + [c];
      CountOnDaySnoc(cs[1..], c, d);
    }
  }

  /** The `coursesByDay` record that `reduce` builds, one increment per
      course in list order. */
  function TallyByDay(cs: seq<Course>): map<Weekday, nat>
  {
    if |cs| == 0 then map[]
    else
      var m := TallyByDay(cs[..|cs| - 1]);
      var d := cs[|cs| - 1].info.dayOfWeek;
      m[d := (if d in m then m[d] else 0) + 1]
  }

  /** The tally holds exactly the days that carry a course, each with its
      number of courses. */
  lemma {:induction false} TallyCounts(cs: seq<Course>)
    ensures forall d: Weekday :: d in TallyByDay(cs) <==> CountOnDay(cs, d) > 0
    ensures forall d: Weekday :: d in TallyByDay(cs) ==> TallyByDay(cs)[d] == CountOnDay(cs, d)
  {
    if |cs| > 0 {
      var init := cs[..|cs| - 1];
      var c := cs[|cs| - 1];
      TallyCounts(init);
      assert cs == init + [c];
      forall d: Weekday
        ensures CountOnDay(cs, d) == CountOnDay(init, d) + (if c.info.dayOfWeek == d then 1 else 0)
      {
        CountOnDaySnoc(init, c, d);
      }
    }
  }

  /** The tally's keys from `d` on whose count is at least 4, in the
      ascending order `Object.entries` gives integer keys. */
  function BusyDaysFrom(tally: map<Weekday, nat>, d: nat): (r: seq<Weekday>)
    requires d <= 7
    ensures forall w: Weekday :: w in r <==> d <= w && w in tally && tally[w] >= 4
    ensures forall x, y :: 0 <= x < y < |r| ==> r[x] < r[y]
    decreases 7 - d
  {
    if d == 7 then []
    else
      var w: Weekday := d;
      var rest := BusyDaysFrom(tally, d + 1);
      assert forall y :: 0 <= y < |rest| ==> rest[y] in rest;
      if w in tally && tally[w] >= 4 then [w] + rest else rest
  }

  function BusyEntry(d: Weekday, count: nat): Suggestion {
    Suggestion(BusyDay(d), Recommendation, BusyDayMessage(d, count), None, Medium)
  }

  /** The days whose course count reaches 4, ascending. */
  function BusyDays(cs: seq<Course>): seq<Weekday> {
    BusyDaysFrom(TallyByDay(cs), 0)
  }

  /** One overloaded-day entry per busy day, in the same order. */
  function BusyEntries(cs: seq<Course>): (r: seq<Suggestion>)
    ensures |r| == |BusyDays(cs)|
    ensures forall k :: 0 <= k < |r| ==> r[k] == BusyEntry(BusyDays(cs)[k], CountOnDay(cs, BusyDays(cs)[k]))
  {
    var days := BusyDays(cs);
    seq(|days|, k requires 0 <= k < |days| => BusyEntry(days[k], CountOnDay(cs, days[k])))
  }

  // ---------------------------------------------------------------------
  // The engine

  /** The list the four checks build, before the fallback. */
  function Generate(cs: seq<Course>): (r: seq<Suggestion>)
    ensures |r| > |ConflictPairs(cs)|
    ensures forall e :: e in r[..|ConflictPairs(cs)|] ==> e.kind == Conflict
    ensures r[|ConflictPairs(cs)|] == CreditEntry(Dashboard.TotalCredits(cs))
  {
    ConflictEntries(cs, ConflictPairs(cs))
      + [CreditEntry(Dashboard.TotalCredits(cs))]
      + FridayEntries(cs)
      + BusyEntries(cs)
  }

  /** `setSuggestions(newSuggestions.length > 0 ? newSuggestions : mockSuggestions)`,
      with the placeholder list passed in. The built list always holds the
      credit entry, so the placeholder never shows. */
  function GenerateAISuggestions(cs: seq<Course>, fallback: seq<Suggestion>): (r: seq<Suggestion>)
    ensures |r| > |ConflictPairs(cs)|
    ensures r[|ConflictPairs(cs)|] == CreditEntry(Dashboard.TotalCredits(cs))
    ensures IsCreditKey(r[|ConflictPairs(cs)|].key)
  {
    var built := Generate(cs);
    if |built| > 0 then built else fallback
  }
}

=== FILE: text.dfy ===
/** String helpers the timetable's text output is built from: decimal
    rendering of numbers (template-literal interpolation) and line handling
    (the exported calendar is a sequence of LF-terminated lines). */
module Text {

  /** The character of decimal digit `d`. */
  function DigitChar(d: nat): (c: char)
    requires d < 10
    ensures '0' <= c <= '9'
    ensures c as int - '0' as int == d
  {
    ('0' as int + d) as char
  }

  predicate IsDigit(c: char) {
    '0' <= c <= '9'
  }

  /** A non-empty run of decimal digits. */
  predicate IsDigits(s: string) {
    |s| > 0 && forall k :: 0 <= k < |s| ==> IsDigit(s[k])
  }

  /** Decimal rendering of a natural number, as `${n}` in a template literal. */
  function NatToString(n: nat): (s: string)
    ensures IsDigits(s)
    decreases n
  {
    if n < 10 then [DigitChar(n)] else NatToString(n / 10) + [DigitChar(n % 10)]
  }

  /** Reads back a run of decimal digits (an independent inverse of `NatToString`). */
  function ParseDigits(s: string): nat
    requires forall k :: 0 <= k < |s| ==> IsDigit(s[k])
  {
    if |s| == 0 then 0
    else
      var c := s[|s| - 1];
      assert IsDigit(c);
      ParseDigits(s[..|s| - 1]) * 10 + (c as int - '0' as int)
  }

  /** Decimal rendering of an integer; negative values get a leading `-`. */
  function IntToString(i: int): (s: string)
    ensures |s| > 0
    ensures i < 0 <==> s[0] == '-'
    ensures 0 <= i ==> IsDigits(s)
  {
    if i < 0 then "-" + NatToString(-i) else NatToString(i)
  }

  lemma {:induction false} ParseNatToString(n: nat)
    ensures ParseDigits(NatToString(n)) == n
    decreases n
  {
    if n >= 10 {
      var s := NatToString(n);
      assert s[..|s| - 1] == NatToString(n / 10);
      ParseNatToString(n / 10);
    }
  }

  /** Distinct numbers render as distinct strings. */
  lemma NatToStringInjective(m: nat, n: nat)
    requires m != n
    ensures NatToString(m) != NatToString(n)
  {
    ParseNatToString(m);
    ParseNatToString(n);
  }

  /** `a + [sep] + b` determines `a` and `b` when `a` holds no `sep`. */
  lemma SeparatorSplit(a: string, b: string, c: string, d: string, sep: char)
    requires sep !in a && sep !in c
    requires a + [sep] + b == c + [sep] + d
    ensures a == c && b == d
  {
    var s := a + [sep] + b;
    assert s[|a|] == sep;
    assert (c + [sep] + d)[|c|] == sep;
    assert |a| == |c|;
    assert a == s[..|a|] == c;
    assert b == s[|a| + 1..] == d;
  }

  /** A string without a line feed: one line of output. */
  predicate SingleLine(s: string) {
    '\n' !in s
  }

  /** Each line followed by a line feed. */
  function Unlines(lines: seq<string>): string {
    if |lines| == 0 then "" else lines[0] + "\n" + Unlines(lines[1..])
  }

  /** The pieces between line feeds (JavaScript's `s.split('\n')`). */
  function Split(s: string): (r: seq<string>)
    ensures |r| >= 1
    ensures forall k :: 0 <= k < |r| ==> SingleLine(r[k])
  {
    if |s| == 0 then [""]
    else if s[0] == '\n' then [""] + Split(s[1..])
    else
      var rest := Split(s[1..]);
      [[s[0]] + rest[0]] + rest[1..]
  }

  lemma {:induction false} UnlinesAppend(a: seq<string>, b: seq<string>)
    ensures Unlines(a + b) == Unlines(a) + Unlines(b)
  {
    if |a| == 0 {
      assert a + b == b;
    } else {
      assert (a + b)[1..] == a[1..] + b;
      UnlinesAppend(a[1..], b);
    }
  }

  lemma {:induction false} SplitSingleLine(s: string)
    requires SingleLine(s)
    ensures Split(s) == [s]
  {
    if |s| > 0 {
      SplitSingleLine(s[1..]);
      assert [s[0]] + s[1..] == s;
    }
  }

  lemma {:induction false} SplitFirstLine(line: string, t: string)
    requires SingleLine(line)
    ensures Split(line + "\n" + t) == [line] + Split(t)
  {
    if |line| == 0 {
      assert line + "\n" + t == "\n" + t;
    } else {
      var s := line + "\n" + t;
      assert s[1..] == line[1..] + "\n" + t;
      SplitFirstLine(line[1..], t);
      assert [s[0]] + line[1..] == line;
    }
  }

  /** Splitting the joined lines gives the lines back, so long as none of
      them contains a line feed. */
  lemma {:induction false} SplitUnlines(lines: seq<string>, last: string)
    requires forall k :: 0 <= k < |lines| ==> SingleLine(lines[k])
    requires SingleLine(last)
    ensures Split(Unlines(lines) + last) == lines + [last]
  {
    if |lines| == 0 {
      assert Unlines(lines) + last == last;
      SplitSingleLine(last);
    } else {
      assert Unlines(lines) + last == lines[0] + "\n" + (Unlines(lines[1..]) + last);
      SplitFirstLine(lines[0], Unlines(lines[1..]) + last);
      SplitUnlines(lines[1..], last);
    }
  }
}

=== FILE: wrappers.dfy ===
/** The optional value used for the timetable's optional fields and lookups. */
module Wrappers {

  /** `None` stands for JavaScript's `undefined` (a missing optional field,
      a `find` that matched nothing, an `editingIndex` of `null`). */
  datatype Option<+T> = None | Some(value: T) {

    /** The value, or `default` when absent (JavaScript's `x || default`
        where only absence is falsy). */
    function GetOr(default: T): T {
      match this
      case Some(v) => v
      case None => default
    }
  }
}
